=== FILE: README.md ===
# Tracker analytics and prediction engine, in Dafny

A model of the stateless engine behind the item tracker. The engine turns a
series of dated points into statistics, labels, forecasts and display text.
A series is a list of `{date, value}` points in chronological order, such as
trade prices or daily trade counts. Every operation is a pure function of its
inputs. The two exceptions are methods with loops: the trailing simple moving
average and the day-by-day projection. The current time `now` is a parameter.

Modules:

- `Wrappers`: `Option`, which stands for the source's `null` results.
- `Numeric`: `Math.round` (`Round`, half up), `parseFloat(x.toFixed(2))`
  (`ToFixed2`, half away from zero, to hundredths), `Math.round(x*10)/10`
  (`RoundTenth`), and signed products. It also holds `IsSqrt`, the two facts
  the model assumes about `Math.sqrt`.
- `Series`: points, sums, means, extremes, `Array.prototype.filter`
  (`Where`), the ascending numeric sort (`SortAsc`, an insertion sort) and the
  population variance and standard deviation.
- `Analytics`: `src/services/analyticsService.js`. It covers price stats,
  windowed price change, volume rollups, demand tiers, volatility, RSI, the
  simple moving average (SMA) and the trend label.
- `Predictor`: `src/utils/pricePredictor.js`. It covers the least-squares fit
  over the point index, the linear, EMA and moving-average (MA) predictors,
  the 0.4/0.4/0.2 weighted ensemble with its one-deviation interval and
  confidence score, the increase probability (`Percent(c, d)` is
  `Math.round(c / d * 100)`) and the day-by-day projection.
- `DateHelpers`: `src/utils/dateHelpers.js`. It covers period keys, date
  ranges, the open-interval filter and chart labels.
- `Formatters`: `src/utils/formatters.js`. It covers the 'N/A' guard, the
  Robux suffix, the '+' sign rule, the K/M/B tiers and the trend colours.
- `Scenarios`: worked examples on concrete series, stated as lemmas.

Values are exact reals and timestamps are integer milliseconds. A day is a
fixed 86 400 000 ms.

## Model

| member | source | states |
|---|---|---|
| Series.VarianceZeroIffConstant | src/services/analyticsService.js:128-132 | The population variance (mean squared deviation from the mean) is never negative, and it is zero exactly for a constant series. |
| Series.StdDev | src/utils/pricePredictor.js:129-132 | The population standard deviation is never negative, and it is zero exactly for a constant series. |
| Analytics.CalculatePriceStats | src/services/analyticsService.js:8-29 | An empty series gives all zeros. Otherwise min, max and median are values of the series. Every value lies between min and max. The median is element n/2 of the ascending copy (the upper median) and lies between min and max. `current` is the last point in input order. The average is the mean (sum over n) rounded to the nearest integer, so it lies between the rounded extremes. |
| Analytics.MedianBetween | src/services/analyticsService.js:20-26 | The first and last elements of the ascending copy are the smallest and largest values. Its middle element is one of the values and lies between them. |
| Analytics.RoundedMeanBetween | src/services/analyticsService.js:25 | The rounded mean never leaves the range of the rounded extremes. |
| Analytics.FirstAfter | src/services/analyticsService.js:46-49 | `find` fails exactly when no point is after the cutoff. Otherwise the index it returns is after the cutoff and no earlier point is. |
| Analytics.FirstAfterIsFirst | src/services/analyticsService.js:46-49 | Any point after the cutoff with no earlier point after it is the one `find` returns, so the match is unique. |
| Analytics.ChangeFrom | src/services/analyticsService.js:53-58 | The change is current minus base. The percentage is 0 for a zero base. Otherwise it is a whole number of hundredths within 0.005 of the exact percentage. |
| Analytics.CalculatePriceChange | src/services/analyticsService.js:37-60 | Below two points the result is (0, 0). Otherwise it is the change against the first point in input order dated strictly after `now - hours`. When no point is that recent, it is the change against the oldest point. |
| Analytics.WindowSum | src/services/analyticsService.js:86-96 | A window sum is the total when every point is after the cutoff, and 0 when none is. |
| Analytics.WindowSumMonotone | src/services/analyticsService.js:83-96 | For non-negative volumes, a later cutoff never sums to more, and no trailing window sums to more than the total. |
| Analytics.VolumeWindowsNested | src/services/analyticsService.js:78-96 | For non-negative volumes, the day, week and 30-day sums against the same `now` are ordered: 0 ≤ day ≤ week ≤ month ≤ total. |
| Analytics.CalculateVolumeStats | src/services/analyticsService.js:67-105 | An empty series gives all zeros. Otherwise the total is the sum of the values. The average is a whole number of tenths within 0.05 of total/n, which is total/n rounded to one decimal. The three windows sum the points strictly after their cutoffs, and for non-negative volumes they are ordered up to the total. |
| Analytics.CalculateDemandLevel | src/services/analyticsService.js:112-116 | High exactly from 10, Medium exactly on [5, 10), Low exactly below 5. The three bands are disjoint and cover every value. |
| Analytics.DemandMonotone | src/services/analyticsService.js:112-116 | More volume never gives a lower tier. |
| Analytics.CalculateVolatility | src/services/analyticsService.js:123-137 | Below two points the result is 0. It is non-finite (`None`) exactly when the mean is zero. Otherwise it is a whole number of hundredths. It is 0 for a flat series. At a positive mean it is non-negative and within 0.005 of σ/mean·100. |
| Analytics.Changes | src/services/analyticsService.js:150-155 | One change fewer than there are values; change i is value i+1 minus value i. |
| Analytics.RecentChanges | src/services/analyticsService.js:157 | The window holds exactly `period` changes, and change i is the rise from point n-period+i-1 to point n-period+i. |
| Analytics.GainSumZeroIff | src/services/analyticsService.js:158 | The sum of the rises is never negative, and it is zero exactly when no change is a rise. |
| Analytics.LossSumZeroIff | src/services/analyticsService.js:159 | The sum of the falls is never positive, and it is zero exactly when no change is a fall. |
| Analytics.RsiOf | src/services/analyticsService.js:161-166 | The RSI lies in [0, 100]. It is 100 with no losses. Otherwise it is the gains' share of gains plus losses in percent, to two decimals, and 0 with no gains. |
| Analytics.ShareOfAverages | src/services/analyticsService.js:158-164 | Dividing both sums by the period leaves the gains' share unchanged, so `100 - 100/(1+rs)` is the share of the raw sums. |
| Analytics.WindowRsi | src/services/analyticsService.js:157-166 | On a window of changes, the RSI lies in [0, 100]. It is 100 when nothing fell. Otherwise it is the two-decimal gain share, which is 0 when nothing rose. |
| Analytics.CalculateRSI | src/services/analyticsService.js:145-167 | With fewer than period+1 points the RSI is 50. Otherwise it lies in [0, 100] and is computed from the last `period` changes: 100 when none of them is a fall, else their gain share to two decimals, which is 0 when none is a rise. |
| Analytics.SmaAt | src/services/analyticsService.js:183-188 | The rounded mean of a window lies between the rounded extremes of that window. |
| Analytics.CalculateMovingAverage | src/services/analyticsService.js:175-193 | The output has length max(0, n - period + 1). Element j carries the date of point j+period-1 and the rounded mean of the `period` values ending there. |
| Analytics.PercentThresholds | src/services/analyticsService.js:210-213 | The ±5% tests on the percentage change are equivalent to comparing the last price with 1.05 and 0.95 times the first, with the direction flipped for a negative first price. |
| Analytics.TrendOf | src/services/analyticsService.js:210-214 | For a positive first price, Rising exactly above +5% and Falling exactly below -5%, so exactly ±5% is Stable. For a zero first price, Rising exactly for a rise and Falling exactly for a fall. |
| Analytics.DetectTrend | src/services/analyticsService.js:200-215 | Below two points the label is Stable. Otherwise it classifies the move from the first of the last seven points (or of all points, if fewer) to the last point. |
| Analytics.TrendIgnoresOlderPoints | src/services/analyticsService.js:205-208 | With at least seven points, prepending older history never changes the label. |
| Predictor.IndexSumsClosedForm | src/utils/pricePredictor.js:14-21 | The running index sums over n points are n(n-1)/2 and (n-1)n(2n-1)/6. |
| Predictor.SpreadPositive | src/utils/pricePredictor.js:23 | The slope denominator `n·Σx² - (Σx)²` equals n²(n²-1)/12, so it is positive from two points on. |
| Predictor.NormalEquationsBySums | src/utils/pricePredictor.js:12-24 | A line makes the residuals and the index-weighted residuals sum to zero exactly when it solves the two linear equations in the running sums `sumX`, `sumY`, `sumXY`, `sumX2`. |
| Predictor.LeastSquares | src/utils/pricePredictor.js:23-24 | The slope and intercept computed from the sums solve both normal equations. |
| Predictor.SolutionUnique | src/utils/pricePredictor.js:23-24 | With a positive determinant the two equations have only one solution. |
| Predictor.LinearRegression | src/utils/pricePredictor.js:10-27 | From two points on, the fitted line satisfies the normal equations of least squares over the points (i, value_i). |
| Predictor.NormalEquationsUnique | src/utils/pricePredictor.js:10-27 | From two points on, only one line satisfies the normal equations, so the fit is the least-squares line. |
| Predictor.RegressionRecoversLine | src/utils/pricePredictor.js:10-27 | Points that lie exactly on a line are fitted by that line. |
| Predictor.ClampedRound | src/utils/pricePredictor.js:44 | The result is never negative. It is within 0.5 of a non-negative input and 0 for a non-positive one. |
| Predictor.PredictPriceLinear | src/utils/pricePredictor.js:35-45 | There is no prediction exactly below three points. A prediction is never negative. It is the value at index n + daysAhead - 1 of every line that solves the least-squares normal equations, clamped at zero and rounded. |
| Predictor.PredictLinearContinuesLine | src/utils/pricePredictor.js:40-44 | On points along a line, the prediction is that line's value at index n + daysAhead - 1, clamped at zero and rounded. |
| Predictor.Smoothing | src/utils/pricePredictor.js:58 | The factor k satisfies k·(period+1) = 2, and for a period of at least 1 it lies in (0, 1]. |
| Predictor.EmaStep | src/utils/pricePredictor.js:62 | One update moves the running average the fraction k of the way towards the new value. |
| Predictor.EmaStepBetween | src/utils/pricePredictor.js:62 | An update of a value and a running average that both lie in [lo, hi] stays in [lo, hi], because it is a convex combination. |
| Predictor.EmaFoldBetween | src/utils/pricePredictor.js:61-63 | The whole loop stays in [lo, hi] when its seed and all its values do. |
| Predictor.EmaFold | src/utils/pricePredictor.js:61-63 | The loop over no values returns its seed. Over one or more values it is one update, with the last value, of the loop over all but the last. |
| Predictor.EmaValueSeed | src/utils/pricePredictor.js:59 | The reference EMA of exactly `period` values is their mean. |
| Predictor.EmaValueSnoc | src/utils/pricePredictor.js:58-63 | Each further value moves the reference EMA by one update with factor 2/(period+1). |
| Predictor.EmaFoldIsEmaValue | src/utils/pricePredictor.js:59-63 | The loop, started from the reference EMA of the first j values and run over the rest, ends at the reference EMA of the whole series. |
| Predictor.CalculateEMA | src/utils/pricePredictor.js:53-66 | There is no value exactly below `period` points. Otherwise the result is the rounded reference EMA, seeded with the mean of the first `period` values and updated with factor 2/(period+1). It lies between the rounded smallest and largest values of the series. |
| Predictor.EmaOfConstant | src/utils/pricePredictor.js:53-66 | On a flat series the EMA is that (rounded) value. |
| Predictor.PredictPriceMA | src/utils/pricePredictor.js:74-83 | There is no value exactly below `period` points. Otherwise it is the last point of the trailing SMA of the same period, and lies between the rounded extremes of the last `period` values. |
| Predictor.WeightedSumBetween | src/utils/pricePredictor.js:124-125 | For positive weights, the weighted sum lies between lo·Σw and hi·Σw when every value lies in [lo, hi]. |
| Predictor.WeightedMeanBetween | src/utils/pricePredictor.js:124-126 | The weighted mean lies between the smallest and the largest component value. |
| Predictor.Available | src/utils/pricePredictor.js:108-112 | The surviving values are empty exactly when every component is null. Every non-null component's value survives, and only such values do. |
| Predictor.PresentSums | src/utils/pricePredictor.js:112-125 | Summing the filtered list gives the same weighted sum and total weight as summing all components with a null one counting as nothing. |
| Predictor.Blend | src/utils/pricePredictor.js:108-126 | There is no blend exactly when every component is null. Otherwise it is Σ value·weight over Σ weight, both over the non-null components only, rounded. It lies between the smallest and largest of them. |
| Predictor.Weights | src/utils/pricePredictor.js:108-111 | The weights are linear 0.4, EMA 0.4 and MA 0.2. The weighted sum and total weight are taken term by term, and they total 1 when all three components are present. |
| Predictor.EnsembleClosedForm | src/utils/pricePredictor.js:108-126 | With all three components the blend is round((0.4·l + 0.4·e + 0.2·m) / 1). Without the EMA it is round((0.4·l + 0.2·m) / 0.6). |
| Predictor.BlendUnanimous | src/utils/pricePredictor.js:108-126 | When every non-null component has the same value, the blend is that value. |
| Predictor.Interval | src/utils/pricePredictor.js:135-136 | The lower end is never negative and the upper end is never below the prediction. For a non-negative prediction the lower end is not above it. The upper end is within 0.5 of prediction + σ. The lower end is within 0.5 of prediction - σ whenever that is not negative, and exactly 0 when it is not positive. |
| Predictor.DataScore | src/utils/pricePredictor.js:139 | The data score lies in [0, 100]. It is n/30·100 below 30 points and exactly 100 from 30 points on. |
| Predictor.VolatilityScore | src/utils/pricePredictor.js:140 | The score is NaN (`None`) exactly for a zero mean and zero deviation. Otherwise it is never negative. When σ ≤ mean at a positive mean, or at any negative mean, it is 100 − σ/mean·100 (stated as score·mean = 100·(mean − σ)). At a positive mean not above σ, or at a zero mean with σ > 0, it is 0. At a positive mean it is at most 100. |
| Predictor.Confidence | src/utils/pricePredictor.js:139-141 | The confidence is NaN exactly for a zero mean with zero deviation. Otherwise it is the average of the data score and the volatility score, rounded: within (x − 0.5, x + 0.5] of that average x. It is never negative, and it lies in [0, 100] at a positive mean. |
| Predictor.ConfidenceGrowsWithData | src/utils/pricePredictor.js:139-141 | More history never lowers the confidence. |
| Predictor.ConfidenceFallsWithVolatility | src/utils/pricePredictor.js:139-141 | At a positive mean, more dispersion never raises the confidence. |
| Predictor.PredictPrice | src/utils/pricePredictor.js:91-155 | Below seven points the result is the insufficient-data record with confidence 0. From seven points on, the linear and MA components always exist, so 'no_predictions' never happens. The EMA exists exactly from ten points. The components are those three predictors. The prediction lies between the smallest and largest present component. 0 ≤ lower, and predicted ≤ upper. The confidence is NaN exactly for an all-zero history, and lies in [0, 100] when the prices sum to a positive value. The exact prediction, interval and confidence are the three lemmas below. |
| Predictor.PredictedByAllWeights | src/utils/pricePredictor.js:103-126 | From ten points on, the prediction is round((0.4·linear + 0.4·EMA + 0.2·MA) / 1) of the three component predictors. |
| Predictor.PredictedWithoutEma | src/utils/pricePredictor.js:103-126 | From seven to nine points there is no EMA, and the prediction is round((0.4·linear + 0.2·MA) / 0.6). |
| Predictor.PredictionSpread | src/utils/pricePredictor.js:129-141 | From seven points on, the interval is one population standard deviation of the prices either side of the prediction. The confidence is scored from the number of points, that deviation and the mean price. |
| Predictor.AllZeroIff | src/utils/pricePredictor.js:129-133 | A history has zero mean and zero deviation exactly when every price is zero. |
| Predictor.PredictionNonNegative | src/utils/pricePredictor.js:103-126 | Non-negative prices give non-negative EMA and MA components, and therefore a non-negative ensemble prediction. |
| Predictor.PredictionOfFlatSeries | src/utils/pricePredictor.js:91-155 | A flat positive history predicts its own rounded level, and the interval collapses onto it. |
| Predictor.CountRises | src/utils/pricePredictor.js:168-174 | The count of rises is at most the number of steps. |
| Predictor.CountRisesIsRises | src/utils/pricePredictor.js:168-174 | The loop's count equals the size of `Rises`, the set of positions i (1 <= i < n) where value i exceeds value i-1. |
| Predictor.RisesSnoc | src/utils/pricePredictor.js:170-174 | Appending a value adds its position to the rises exactly when it exceeds its predecessor, and leaves the earlier rises as they are. |
| Predictor.CountRisesExtremes | src/utils/pricePredictor.js:170-174 | Every step is a rise exactly when the values increase strictly. No step is a rise exactly when they never increase. |
| Predictor.ShareExtremes | src/utils/pricePredictor.js:176 | With at most nine steps, the rounded share lies in [0, 100]. It is 100 exactly when every step rose and 0 exactly when none did. |
| Predictor.RisesShare | src/utils/pricePredictor.js:167-176 | For two to ten values, `Percent(rises, steps)` lies in [0, 100], is 100 exactly when they increase strictly, 0 exactly when they never increase, and equals `Percent(|Rises|, steps)`. |
| Predictor.CalculatePriceIncreaseProbability | src/utils/pricePredictor.js:162-177 | Below two points the result is 50. Otherwise it is the number of rises among the last ten points (or all, if fewer), divided by their number of steps, times 100, rounded. It lies in [0, 100]: 100 exactly when the last ten points (or all, if fewer) increase strictly, and 0 exactly when they never increase. |
| Predictor.GeneratePriceProjection | src/utils/pricePredictor.js:185-208 | Below three points the result is empty. Otherwise there are exactly max(0, days) points. Point i is projected, is dated i+1 days after `now`, and carries the linear prediction i+1 days ahead, so it is never negative. |
| DateHelpers.ParsePeriod | src/utils/dateHelpers.js:33-53 | A recognised key names the period whose key it is. |
| DateHelpers.ParseKey | src/utils/dateHelpers.js:33-53 | Each of the six period keys is recognised as its own period. |
| DateHelpers.Lookback | src/utils/dateHelpers.js:33-53 | Every period except 'all' reaches a positive distance back, and only 'all' has no fixed distance. |
| DateHelpers.GetDateRange | src/utils/dateHelpers.js:29-57 | The range always ends at `now`. '24h' starts 24 hours earlier; '7d', '30d', '90d' and '1y' start 7, 30, 90 and 365 days earlier. 'all' starts on 1 January 2000. Any other key gives the seven-day range. |
| DateHelpers.UnknownPeriodIsWeek | src/utils/dateHelpers.js:52-53 | An unknown key gives exactly the '7d' range. |
| DateHelpers.RollingStartsNested | src/utils/dateHelpers.js:34-48 | Longer periods start strictly earlier: 1y < 90d < 30d < 7d < 24h < now. |
| DateHelpers.FilterByDateRange | src/utils/dateHelpers.js:67-72 | A point is kept exactly when its date is strictly after the start and strictly before the end. Both ends are excluded. |
| DateHelpers.FilterIsSubsequence | src/utils/dateHelpers.js:67-72 | The kept points appear in their original relative order, at strictly increasing input positions. |
| DateHelpers.FilterNarrows | src/utils/dateHelpers.js:67-72 | Filtering to a range inside an earlier range is the same as filtering once to the inner range. |
| DateHelpers.FilterIdempotent | src/utils/dateHelpers.js:67-72 | Filtering twice with the same bounds is filtering once. |
| DateHelpers.DayWithinWeek | src/utils/dateHelpers.js:29-72 | Restricting the last week's points to the last 24 hours gives the last 24 hours' points. |
| DateHelpers.Label | src/utils/dateHelpers.js:117-124 | No period's title is 'Custom Range'. |
| DateHelpers.GetPeriodLabel | src/utils/dateHelpers.js:116-127 | Each of the six keys gets its own title. Every other key, and only those, gets 'Custom Range'. |
| DateHelpers.LabelsDistinct | src/utils/dateHelpers.js:117-124 | Different periods have different titles. |
| Formatters.FormatRobux | src/utils/formatters.js:6-14 | The text is 'N/A' exactly for a missing value. Otherwise it is the whole-number rendering followed by ' R$'. |
| Formatters.FormatNumber | src/utils/formatters.js:21-25 | A missing value gives 'N/A'; a present one gives its grouped rendering. |
| Formatters.FormatPercent | src/utils/formatters.js:33-38 | The text is 'N/A' exactly for a missing value. Otherwise it ends in '%' and starts with '+' exactly when the value is positive. |
| Formatters.CompactTier | src/utils/formatters.js:48-57 | B exactly from 1e9, M exactly on [1e6, 1e9), K exactly on [1e3, 1e6), no suffix exactly below 1e3. The tiers are disjoint and cover every value. |
| Formatters.MantissaRange | src/utils/formatters.js:48-56 | In the K and M tiers the printed mantissa lies in [1, 1000). In the B tier it is at least 1. |
| Formatters.FormatCompact | src/utils/formatters.js:45-58 | A missing value gives 'N/A'. The letter at the end of the text is the tier of the value. Below 1000 the text is the plain rendering. |
| Formatters.SignOf | src/utils/formatters.js:66-68 | Positive, negative and zero are disjoint and cover every value. |
| Formatters.GetTrendColor | src/utils/formatters.js:65-69 | The text class is the 600 shade of the sign's hue: green up, red down, gray flat. |
| Formatters.GetTrendBgColor | src/utils/formatters.js:76-80 | The badge is the 50 background and the 700 text of the sign's hue. |
| Formatters.TrendColorsBySign | src/utils/formatters.js:65-80 | Two values get the same class exactly when they have the same sign, for both colour functions. |
| Formatters.PlusMeansGreen | src/utils/formatters.js:36-37 | A percentage has a '+' exactly when its change is coloured green. |
| Scenarios.MedianTieBreak | src/services/analyticsService.js:26 | With four ascending values the median is the third, not the mean of the middle two. |
| Scenarios.TrendBoundary | src/services/analyticsService.js:212-214 | A rise of exactly 5% is Stable; a rise of 5.1% is Rising. |
| Scenarios.StaleWindowFallsBackToOldest | src/services/analyticsService.js:46-51 | When no point is recent enough, the change is taken against the oldest point. |
| Scenarios.WeekIsPredicted | src/utils/pricePredictor.js:91-155 | Seven rising daily prices give a weighted-ensemble prediction with no EMA component. |
| Scenarios.IncreaseProbabilityExtremes | src/utils/pricePredictor.js:162-177 | Ten strictly rising prices give 100; ten strictly falling prices give 0. |
| Scenarios.ZigzagProbability | src/utils/pricePredictor.js:162-177 | Ten prices alternating down and up rise on five of nine steps, which gives 56. |

## Left out

- React components, pages, hooks, the HTTP and scraping handlers, the local
  cache and the static item configuration. These are rendering, network and
  storage code with no stable contract.
- `formatDate`, `formatRelativeTime` and `groupByPeriod` in
  `src/utils/dateHelpers.js`. They are date-fns formatting, with no selection
  logic of their own.
- Calendar arithmetic. `subDays`, the `setDate` step of the projection and
  `new Date(2000, 0, 1)` work in local time and follow daylight saving. The
  model uses fixed 24-hour days, and 'all' starts at 946 684 800 000 ms,
  which is midnight UTC. All three volume windows of
  `calculateVolumeStats`, `last24h` included, use `subDays` and so are
  fixed-length here too. `subHours` subtracts an exact number of
  milliseconds, so the `calculatePriceChange` cutoff and the '24h' date
  range are modelled exactly.
- Default arguments. Every parameter is passed explicitly by the caller:
  the RSI period (default 14), the decimals of `formatPercent` (2),
  `daysAhead` (1), the EMA period (10), the moving-average period (7) and
  the projection's day count (7).
- ISO-8601 strings. Dates are integer milliseconds. The `dateField` argument
  of `filterByDateRange` is not modelled: the date is always the point's
  `date`.
- IEEE-754 floating point. Values are exact reals. NaN and the infinities
  appear only where the source divides by zero: `CalculateVolatility` and
  `Confidence` return `None` for them, and `TrendOf` follows their signs.
  `Math.sqrt` is a parameter known only to be non-negative and zero exactly
  at zero.
- Text renderers. `Intl.NumberFormat`, `toFixed` and `toString` are function
  parameters of the formatters, so their digits are not modelled.
- `Math.round` rounds halves upwards, also for negative values; the model
  does the same.
- Missing (`null`) series. Every analytics and predictor function treats
  them like empty ones, so they are modelled as the empty sequence.
  `filterByDateRange` has no such guard and throws on `null`. The model has
  no null sequence, so that error is not modelled.
- Period arguments below 1 for `calculateRSI`, `calculateMovingAverage`,
  `calculateEMA` and `predictPriceMA`. The source then divides by zero or
  slices oddly. The model requires a period of at least 1, which every caller
  in the source passes.
- The `method` field of a prediction is called `kind`, because `method` is a
  Dafny keyword. The `components` record is `None` where the source omits
  it.
- `getPeriodLabel` looks keys up in an object literal. Keys inherited from
  `Object.prototype` (such as 'toString') are not modelled.
- Predictor.PredictPrice: lower ≤ predicted is proved only for non-negative
  prices. With negative prices the prediction can be negative while the
  lower end is clamped at 0.
- Predictor.Confidence: the upper bound of 100 is proved only at a positive
  mean. At a negative mean the volatility score exceeds 100.
- Formatters.FormatNumber: no "if and only if" for 'N/A', because a renderer
  passed as a parameter could itself produce 'N/A'.

=== FILE: analytics.dfy ===
/**
 * The series statistics and classifiers of the analytics service: summary
 * statistics, windowed price change, volume rollups, demand tiers,
 * volatility, RSI, the trailing simple moving average, and trend labels.
 * A missing series behaves like an empty one everywhere in this module, so
 * it is modelled as the empty sequence.
 */
module Analytics {
  import opened Wrappers
  import opened Numeric
  import opened Series

  // ---------------------------------------------------------------------
  // Summary statistics

  datatype PriceStats = PriceStats(min: real, max: real, average: real, median: real, current: real)

  /**
   * Extremes, rounded mean, upper median (index n/2 of the ascending copy)
   * and the most recent value in input order.
   */
  function CalculatePriceStats(s: seq<Point>): (r: PriceStats)
    ensures |s| == 0 ==> r == PriceStats(0.0, 0.0, 0.0, 0.0, 0.0)
    ensures |s| > 0 ==>
      && r.min in Values(s) && r.max in Values(s) && r.median in Values(s)
      && (forall i :: 0 <= i < |s| ==> r.min <= s[i].value <= r.max)
      && r.min <= r.median <= r.max
      && r.median == SortAsc(Values(s))[|s| / 2]
      && r.current == s[|s| - 1].value
      && r.average == Round(Sum(Values(s)) / |s| as real) as real
      && Round(r.min) as real <= r.average <= Round(r.max) as real
  {
    if |s| == 0 then PriceStats(0.0, 0.0, 0.0, 0.0, 0.0)
    else
      var vs := Values(s);
      var sorted := SortAsc(vs);
      MedianBetween(vs);
      RoundedMeanBetween(vs);
      PriceStats(sorted[0], sorted[|sorted| - 1], Round(Mean(vs)) as real,
                 sorted[|sorted| / 2], vs[|vs| - 1])
  }

  /** The ends of the ascending copy are the extremes, and its middle value lies between them. */
  lemma MedianBetween(vs: seq<real>)
    requires |vs| > 0
    ensures var sorted := SortAsc(vs);
      && |sorted| == |vs|
      && sorted[0] == SeqMin(vs) && sorted[|vs| - 1] == SeqMax(vs)
      && sorted[|vs| / 2] in vs
      && SeqMin(vs) <= sorted[|vs| / 2] <= SeqMax(vs)
  {
    SortAscExtremes(vs);
    var sorted := SortAsc(vs);
    assert sorted[|vs| / 2] in vs;
  }

  /** The rounded mean lies between the rounded extremes. */
  lemma RoundedMeanBetween(vs: seq<real>)
    requires |vs| > 0
    ensures Round(SeqMin(vs)) <= Round(Mean(vs)) <= Round(SeqMax(vs))
  {
    MeanBetween(vs, SeqMin(vs), SeqMax(vs));
    RoundMonotone(SeqMin(vs), Mean(vs));
    RoundMonotone(Mean(vs), SeqMax(vs));
  }

  // ---------------------------------------------------------------------
  // Windowed price change

  datatype PriceChange = PriceChange(change: real, changePercent: real)

  /** `points.find(p => isAfter(p.date, cutoff))`, as the index of the match. */
  function FirstAfter(s: seq<Point>, cutoff: int): (r: Option<nat>)
    ensures r.None? <==> forall i :: 0 <= i < |s| ==> s[i].date <= cutoff
    ensures r.Some? ==> r.value < |s| && s[r.value].date > cutoff
    ensures r.Some? ==> forall i :: 0 <= i < r.value ==> s[i].date <= cutoff
    decreases |s|
  {
    if |s| == 0 then None
    else if s[0].date > cutoff then Some(0)
    else
      match FirstAfter(s[1..], cutoff)
      case None => None
      case Some(k) => Some(k + 1)
  }

  /** The index `FirstAfter` finds is the only one that is after the cutoff with nothing after it before. */
  lemma FirstAfterIsFirst(s: seq<Point>, cutoff: int, k: int)
    requires 0 <= k < |s| && s[k].date > cutoff
    requires forall i :: 0 <= i < k ==> s[i].date <= cutoff
    ensures FirstAfter(s, cutoff) == Some(k)
  {
  }

  /** The change from `base` to `current`, in units and in percent of `base` (two decimals). */
  function ChangeFrom(base: real, current: real): (r: PriceChange)
    ensures r.change == current - base
    ensures base == 0.0 ==> r.changePercent == 0.0
    ensures base != 0.0 ==> IsCents(r.changePercent)
    ensures base != 0.0 ==> -0.005 <= r.changePercent - (current - base) / base * 100.0 <= 0.005
  {
    var change := current - base;
    PriceChange(change, if base != 0.0 then ToFixed2(change / base * 100.0) else 0.0)
  }

  /**
   * Change of the latest price against the first point (in input order)
   * dated strictly after `now - hours`, or against the oldest point when
   * no point is that recent.
   */
  function CalculatePriceChange(s: seq<Point>, hours: int, now: int): (r: PriceChange)
    ensures |s| < 2 ==> r == PriceChange(0.0, 0.0)
    ensures |s| >= 2 && (forall i :: 0 <= i < |s| ==> s[i].date <= now - hours * MsPerHour) ==>
      r == ChangeFrom(s[0].value, s[|s| - 1].value)
    ensures forall k ::
      (&& |s| >= 2 && 0 <= k < |s| && s[k].date > now - hours * MsPerHour
       && (forall i :: 0 <= i < k ==> s[i].date <= now - hours * MsPerHour))
      ==> r == ChangeFrom(s[k].value, s[|s| - 1].value)
  {
    if |s| < 2 then PriceChange(0.0, 0.0)
    else
      var cutoff := now - hours * MsPerHour;
      var base := match FirstAfter(s, cutoff)
        case Some(k) => s[k].value
        case None => s[0].value;
      FirstAfterSpecified(s, cutoff);
      ChangeFrom(base, s[|s| - 1].value)
  }

  lemma FirstAfterSpecified(s: seq<Point>, cutoff: int)
    ensures forall k ::
      (&& 0 <= k < |s| && s[k].date > cutoff && (forall i :: 0 <= i < k ==> s[i].date <= cutoff))
      ==> FirstAfter(s, cutoff) == Some(k)
  {
    forall k | 0 <= k < |s| && s[k].date > cutoff && (forall i :: 0 <= i < k ==> s[i].date <= cutoff)
      ensures FirstAfter(s, cutoff) == Some(k)
    {
      FirstAfterIsFirst(s, cutoff, k);
    }
  }

  // ---------------------------------------------------------------------
  // Volume rollups

  datatype VolumeStats = VolumeStats(total: real, average: real, last24h: real, last7d: real, last30d: real)

  /** `isAfter(p.date, cutoff)`. */
  function After(cutoff: int): Point -> bool {
    (p: Point) => p.date > cutoff
  }

  /** Sum of the values dated strictly after `cutoff`. */
  function WindowSum(s: seq<Point>, cutoff: int): (r: real)
    ensures (forall i :: 0 <= i < |s| ==> s[i].date > cutoff) ==> r == Sum(Values(s))
    ensures (forall i :: 0 <= i < |s| ==> s[i].date <= cutoff) ==> r == 0.0
  {
    WhereAllOrNone(s, After(cutoff));
    Sum(Values(Where(s, After(cutoff))))
  }

  /** With non-negative values, a later cutoff never sums more, and no window sums more than the whole series. */
  lemma {:induction false} WindowSumMonotone(s: seq<Point>, early: int, late: int)
    requires early <= late
    requires NonNegative(s)
    ensures 0.0 <= WindowSum(s, late) <= WindowSum(s, early) <= Sum(Values(s))
    decreases |s|
  {
    if |s| > 0 {
      var p, last := s[..|s| - 1], s[|s| - 1];
      WindowSumMonotone(p, early, late);
      WindowSumSnoc(s, early);
      WindowSumSnoc(s, late);
      assert Values(s) == Values(p) + [last.value];
      SumAppend(Values(p), [last.value]);
    }
  }

  /** The last point adds its value to a window exactly when it is after the cutoff. */
  lemma WindowSumSnoc(s: seq<Point>, cutoff: int)
    requires |s| > 0
    ensures WindowSum(s, cutoff)
      == WindowSum(s[..|s| - 1], cutoff) + (if s[|s| - 1].date > cutoff then s[|s| - 1].value else 0.0)
  {
    var p, last := s[..|s| - 1], s[|s| - 1];
    var w := Where(p, After(cutoff));
    ValuesAppend(w, if After(cutoff)(last) then [last] else []);
    SumAppend(Values(w), Values(if After(cutoff)(last) then [last] else []));
  }

  /** The day, week and 30-day windows are nested, so their sums are ordered. */
  lemma VolumeWindowsNested(s: seq<Point>, now: int)
    ensures NonNegative(s) ==>
      && 0.0 <= WindowSum(s, now - MsPerDay)
      && WindowSum(s, now - MsPerDay) <= WindowSum(s, now - 7 * MsPerDay)
      && WindowSum(s, now - 7 * MsPerDay) <= WindowSum(s, now - 30 * MsPerDay)
      && WindowSum(s, now - 30 * MsPerDay) <= Sum(Values(s))
  {
    if NonNegative(s) {
      WindowSumMonotone(s, now - 7 * MsPerDay, now - MsPerDay);
      WindowSumMonotone(s, now - 30 * MsPerDay, now - 7 * MsPerDay);
    }
  }

  /**
   * Total, mean per point (one decimal) and the trailing sums over the last
   * day, week and 30 days, each measured from the same `now`.
   */
  function CalculateVolumeStats(s: seq<Point>, now: int): (r: VolumeStats)
    ensures |s| == 0 ==> r == VolumeStats(0.0, 0.0, 0.0, 0.0, 0.0)
    ensures |s| > 0 ==> r.total == Sum(Values(s))
    ensures |s| > 0 ==> IsIntegral(r.average * 10.0)
    ensures |s| > 0 ==> -0.05 < r.average - r.total / |s| as real <= 0.05
    ensures |s| > 0 ==> r.last24h == WindowSum(s, now - MsPerDay)
    ensures |s| > 0 ==> r.last7d == WindowSum(s, now - 7 * MsPerDay)
    ensures |s| > 0 ==> r.last30d == WindowSum(s, now - 30 * MsPerDay)
    ensures NonNegative(s) ==> 0.0 <= r.last24h <= r.last7d <= r.last30d <= r.total
  {
    if |s| == 0 then VolumeStats(0.0, 0.0, 0.0, 0.0, 0.0)
    else
      var total := Sum(Values(s));
      var average := RoundTenth(total / |s| as real);
      assert IsIntegral(average * 10.0) && -0.05 < average - total / |s| as real <= 0.05;
      VolumeWindowsNested(s, now);
      VolumeStats(total, average,
                  WindowSum(s, now - MsPerDay), WindowSum(s, now - 7 * MsPerDay),
                  WindowSum(s, now - 30 * MsPerDay))
  }

  // ---------------------------------------------------------------------
  // Demand tiers

  datatype Demand = High | Medium | Low {
    /** Position of the tier, Low lowest. */
    function Rank(): int {
      match this
      case Low => 0
      case Medium => 1
      case High => 2
    }
  }

  /** High from 10 trades a day, Medium from 5, Low below. */
  function CalculateDemandLevel(averageDailyVolume: real): (r: Demand)
    ensures r == High <==> averageDailyVolume >= 10.0
    ensures r == Medium <==> 5.0 <= averageDailyVolume < 10.0
    ensures r == Low <==> averageDailyVolume < 5.0
  {
    if averageDailyVolume >= 10.0 then High
    else if averageDailyVolume >= 5.0 then Medium
    else Low
  }

  /** More volume never gives a lower tier. */
  lemma DemandMonotone(a: real, b: real)
    requires a <= b
    ensures CalculateDemandLevel(a).Rank() <= CalculateDemandLevel(b).Rank()
  {
  }

  // ---------------------------------------------------------------------
  // Volatility

  /**
   * Population standard deviation as a percentage of the mean, two
   * decimals; 0 below two points. A zero mean makes the source divide by
   * zero, which yields NaN or an infinity: `None` stands for that
   * non-finite result.
   */
  function CalculateVolatility(s: seq<Point>, sqrt: real -> real): (r: Option<real>)
    requires IsSqrt(sqrt)
    ensures |s| < 2 ==> r == Some(0.0)
    ensures r.None? <==> |s| >= 2 && Sum(Values(s)) == 0.0
    ensures r.Some? ==> IsCents(r.value)
    ensures |s| >= 2 && Constant(Values(s)) && r.Some? ==> r.value == 0.0
    ensures |s| >= 2 && Sum(Values(s)) > 0.0 ==> r.Some? && r.value >= 0.0
    ensures |s| >= 2 && Sum(Values(s)) > 0.0 ==>
      -0.005 <= r.value - StdDev(Values(s), sqrt) / Mean(Values(s)) * 100.0 <= 0.005
  {
    if |s| < 2 then Some(0.0)
    else
      var vs := Values(s);
      MeanSign(vs);
      if Mean(vs) == 0.0 then None
      else
        var ratio := StdDev(vs, sqrt) / Mean(vs);
        Some(ToFixed2(ratio * 100.0))
  }

  // ---------------------------------------------------------------------
  // Relative strength index

  /** Differences between consecutive values. */
  function Changes(vs: seq<real>): (cs: seq<real>)
    ensures |cs| == if |vs| == 0 then 0 else |vs| - 1
    ensures forall i :: 0 <= i < |cs| ==> cs[i] == vs[i + 1] - vs[i]
  {
    if |vs| == 0 then [] else seq(|vs| - 1, i requires 0 <= i < |vs| - 1 => vs[i + 1] - vs[i])
  }

  /** `changes.filter(c => c > 0).reduce(+)`. */
  function GainSum(cs: seq<real>): real
    decreases |cs|
  {
    if |cs| == 0 then 0.0
    else GainSum(cs[..|cs| - 1]) + (if cs[|cs| - 1] > 0.0 then cs[|cs| - 1] else 0.0)
  }

  /** `changes.filter(c => c < 0).reduce(+)`: the (non-positive) total of the falls. */
  function LossSum(cs: seq<real>): real
    decreases |cs|
  {
    if |cs| == 0 then 0.0
    else LossSum(cs[..|cs| - 1]) + (if cs[|cs| - 1] < 0.0 then cs[|cs| - 1] else 0.0)
  }

  lemma {:induction false} GainSumZeroIff(cs: seq<real>)
    ensures GainSum(cs) >= 0.0
    ensures GainSum(cs) == 0.0 <==> forall i :: 0 <= i < |cs| ==> cs[i] <= 0.0
    decreases |cs|
  {
    if |cs| > 0 {
      var p := cs[..|cs| - 1];
      GainSumZeroIff(p);
      assert forall i :: 0 <= i < |p| ==> p[i] == cs[i];
    }
  }

  lemma {:induction false} LossSumZeroIff(cs: seq<real>)
    ensures LossSum(cs) <= 0.0
    ensures LossSum(cs) == 0.0 <==> forall i :: 0 <= i < |cs| ==> cs[i] >= 0.0
    decreases |cs|
  {
    if |cs| > 0 {
      var p := cs[..|cs| - 1];
      LossSumZeroIff(p);
      assert forall i :: 0 <= i < |p| ==> p[i] == cs[i];
    }
  }

  /** The last `period` changes of the series: `changes.slice(-period)`. */
  function RecentChanges(s: seq<Point>, period: int): (cs: seq<real>)
    requires 1 <= period < |s|
    ensures |cs| == period
    ensures forall i :: 0 <= i < period ==>
      cs[i] == s[|s| - period + i].value - s[|s| - period + i - 1].value
  {
    var all := Changes(Values(s));
    all[|all| - period..]
  }

  /** RSI from average gain and average loss over the window: 100 when nothing fell. */
  function RsiOf(gains: real, losses: real): (r: real)
    requires gains >= 0.0 && losses >= 0.0
    ensures 0.0 <= r <= 100.0
    ensures losses == 0.0 ==> r == 100.0
    ensures losses > 0.0 ==> r == ToFixed2(100.0 * gains / (gains + losses))
    ensures losses > 0.0 && gains == 0.0 ==> r == 0.0
  {
    if losses == 0.0 then 100.0
    else
      var rs := gains / losses;
      var rsi := 100.0 - 100.0 / (1.0 + rs);
      assert rsi == 100.0 * gains / (gains + losses);
      assert 0.0 <= rsi <= 100.0;
      assert gains == 0.0 ==> rsi == 0.0 / 100.0;
      ToFixed2OfCents(0);
      ToFixed2Percent(rsi);
      ToFixed2(rsi)
  }

  /** No change in the window is a fall. */
  predicate NoFall(cs: seq<real>) {
    forall i :: 0 <= i < |cs| ==> cs[i] >= 0.0
  }

  /** No change in the window is a rise. */
  predicate NoRise(cs: seq<real>) {
    forall i :: 0 <= i < |cs| ==> cs[i] <= 0.0
  }

  lemma RsiAverages(cs: seq<real>, p: real)
    requires p > 0.0 && GainSum(cs) >= 0.0 && LossSum(cs) < 0.0
    ensures -LossSum(cs) / p > 0.0
    ensures 100.0 * (GainSum(cs) / p) / (GainSum(cs) / p + -LossSum(cs) / p) == GainShare(cs)
  {
    ShareOfAverages(GainSum(cs), -LossSum(cs), p);
  }

  /** Dividing gains `g` and losses `m` by the same positive period leaves the gain share unchanged. */
  lemma ShareOfAverages(g: real, m: real, p: real)
    requires p > 0.0 && g >= 0.0 && m > 0.0
    ensures m / p > 0.0
    ensures 100.0 * (g / p) / (g / p + m / p) == 100.0 * g / (g + m)
  {
    var a, b := g / p, m / p;
    assert a * p == g && b * p == m;
    assert (a + b) * p == g + m;
    var lhs, rhs := 100.0 * a / (a + b), 100.0 * g / (g + m);
    assert lhs * (a + b) == 100.0 * a;
    assert rhs * (g + m) == 100.0 * g;
    assert (rhs * (a + b) - 100.0 * a) * p == rhs * (g + m) - 100.0 * g;
    ZeroFactor(rhs * (a + b) - 100.0 * a, p);
    assert (rhs - lhs) * (a + b) == 0.0;
    ZeroFactor(rhs - lhs, a + b);
  }

  /** Gains as a percentage of gains plus losses: RSI without the smoothing by `period`. */
  function GainShare(cs: seq<real>): real {
    var g, l := GainSum(cs), -LossSum(cs);
    if g + l == 0.0 then 0.0 else 100.0 * g / (g + l)
  }

  /** RSI of a window of `period` changes, from its average gain and average loss. */
  function WindowRsi(cs: seq<real>, period: int): (r: real)
    requires period >= 1
    ensures 0.0 <= r <= 100.0
    ensures NoFall(cs) ==> r == 100.0
    ensures !NoFall(cs) ==> r == ToFixed2(GainShare(cs))
    ensures !NoFall(cs) && NoRise(cs) ==> r == 0.0
  {
    GainSumZeroIff(cs);
    LossSumZeroIff(cs);
    var p := period as real;
    if LossSum(cs) == 0.0 then RsiOf(GainSum(cs) / p, -LossSum(cs) / p)
    else
      RsiAverages(cs, p);
      RsiOf(GainSum(cs) / p, -LossSum(cs) / p)
  }

  /**
   * 50 until there are `period + 1` points; otherwise the RSI of the last
   * `period` changes: 100 when none of them is a fall, else the share of
   * the gains in gains plus losses, which is 0 when none is a rise.
   */
  function CalculateRSI(s: seq<Point>, period: int): (r: real)
    requires period >= 1
    ensures |s| < period + 1 ==> r == 50.0
    ensures 0.0 <= r <= 100.0
    ensures |s| >= period + 1 ==>
      var cs := RecentChanges(s, period);
      && (NoFall(cs) ==> r == 100.0)
      && (!NoFall(cs) ==> r == ToFixed2(GainShare(cs)))
      && (!NoFall(cs) && NoRise(cs) ==> r == 0.0)
  {
    if |s| < period + 1 then 50.0
    else WindowRsi(RecentChanges(s, period), period)
  }

  // ---------------------------------------------------------------------
  // Trailing simple moving average

  /** The window of `period` points ending at index `i`. */
  function WindowEndingAt(s: seq<Point>, period: int, i: int): (w: seq<Point>)
    requires 1 <= period && period - 1 <= i < |s|
    ensures |w| == period
  {
    s[i - period + 1..i + 1]
  }

  /** The rounded mean of the `period` values ending at index `i`; it lies between their rounded extremes. */
  function SmaAt(s: seq<Point>, period: int, i: int): (r: real)
    requires 1 <= period && period - 1 <= i < |s|
    ensures Round(SeqMin(Values(WindowEndingAt(s, period, i)))) as real <= r
    ensures r <= Round(SeqMax(Values(WindowEndingAt(s, period, i)))) as real
  {
    var vs := Values(WindowEndingAt(s, period, i));
    RoundedMeanBetween(vs);
    Round(Mean(vs)) as real
  }

  /**
   * One point per index `i >= period - 1`, dated like point `i` and
   * carrying the rounded mean of the `period` values ending there.
   */
  method CalculateMovingAverage(s: seq<Point>, period: int) returns (sma: seq<Point>)
    requires period >= 1
    ensures |sma| == if |s| < period then 0 else |s| - period + 1
    ensures forall j :: 0 <= j < |sma| ==>
      sma[j] == Point(s[j + period - 1].date, SmaAt(s, period, j + period - 1))
  {
    sma := [];
    if |s| < period {
      return;
    }
    var i := period - 1;
    while i < |s|
      invariant period - 1 <= i <= |s|
      invariant |sma| == i - (period - 1)
      invariant forall j :: 0 <= j < |sma| ==>
        sma[j] == Point(s[j + period - 1].date, SmaAt(s, period, j + period - 1))
    {
      var window := s[i - period + 1..i + 1];
      var avg := Sum(Values(window)) / period as real;
      assert window == WindowEndingAt(s, period, i);
      assert Round(avg) as real == SmaAt(s, period, i);
      sma := sma + [Point(s[i].date, Round(avg) as real)];
      i := i + 1;
    }
  }

  // ---------------------------------------------------------------------
  // Trend labels

  datatype Trend = Rising | Falling | Stable

  /** The percentage thresholds of `detectTrend`, restated without the division. */
  lemma PercentThresholds(first: real, last: real)
    requires first != 0.0
    ensures first > 0.0 ==> ((last - first) / first * 100.0 > 5.0 <==> last > first * 1.05)
    ensures first > 0.0 ==> ((last - first) / first * 100.0 < -5.0 <==> last < first * 0.95)
    ensures first < 0.0 ==> ((last - first) / first * 100.0 > 5.0 <==> last < first * 1.05)
    ensures first < 0.0 ==> ((last - first) / first * 100.0 < -5.0 <==> last > first * 0.95)
  {
    var q := (last - first) / first;
    assert q * first == last - first;
    if first > 0.0 {
      assert q > 0.05 <==> q * first > 0.05 * first;
      assert q < -0.05 <==> q * first < -0.05 * first;
    } else {
      assert q > 0.05 <==> q * first < 0.05 * first;
      assert q < -0.05 <==> q * first > -0.05 * first;
    }
  }

  /**
   * Classifies the move from `first` to `last` by its percentage change:
   * above 5 is Rising, below -5 is Falling. With `first == 0` the source
   * divides by zero: a rise gives +Infinity (Rising), a fall -Infinity
   * (Falling), no move NaN, which fails both comparisons (Stable).
   */
  function TrendOf(first: real, last: real): (r: Trend)
    ensures first > 0.0 ==> (r == Rising <==> last > first * 1.05)
    ensures first > 0.0 ==> (r == Falling <==> last < first * 0.95)
    ensures first < 0.0 ==> (r == Rising <==> last < first * 1.05)
    ensures first < 0.0 ==> (r == Falling <==> last > first * 0.95)
    ensures first == 0.0 ==> (r == Rising <==> last > 0.0) && (r == Falling <==> last < 0.0)
  {
    if first == 0.0 then
      if last > 0.0 then Rising else if last < 0.0 then Falling else Stable
    else
      PercentThresholds(first, last);
      var change := (last - first) / first * 100.0;
      if change > 5.0 then Rising
      else if change < -5.0 then Falling
      else Stable
  }

  /** Stable below two points; otherwise the move across the last 7 points (or all, if fewer). */
  function DetectTrend(s: seq<Point>): (r: Trend)
    ensures |s| < 2 ==> r == Stable
    ensures |s| >= 2 ==> r == TrendOf(Last(s, 7)[0].value, s[|s| - 1].value)
  {
    if |s| < 2 then Stable
    else
      var recent := Last(s, 7);
      TrendOf(recent[0].value, recent[|recent| - 1].value)
  }

  /** Only the last seven points matter: older history never changes the label. */
  lemma TrendIgnoresOlderPoints(older: seq<Point>, s: seq<Point>)
    requires |s| >= 7
    ensures DetectTrend(older + s) == DetectTrend(s)
  {
    assert Last(older + s, 7) == Last(s, 7);
  }
}

=== FILE: dates.dfy ===
/**
 * Date helpers: the named reporting periods, the time range each one
 * stands for relative to "now", the chart label for each, and filtering
 * points to the inside of a range. Timestamps are milliseconds since the
 * Unix epoch.
 */
module DateHelpers {
  import opened Wrappers
  import opened Series

  /** The reporting periods the dashboard offers. */
  datatype Period = Day | Week | Month | Quarter | Year | AllTime

  /** The key each period goes by. */
  function Key(p: Period): string
  {
    match p
    case Day => "24h"
    case Week => "7d"
    case Month => "30d"
    case Quarter => "90d"
    case Year => "1y"
    case AllTime => "all"
  }

  /** The period a key names, if any; the inverse of `Key`. */
  function ParsePeriod(key: string): (r: Option<Period>)
    ensures r.Some? ==> Key(r.value) == key
  {
    if key == "24h" then Some(Day)
    else if key == "7d" then Some(Week)
    else if key == "30d" then Some(Month)
    else if key == "90d" then Some(Quarter)
    else if key == "1y" then Some(Year)
    else if key == "all" then Some(AllTime)
    else None
  }

  /** Every period's key parses back to that period. */
  lemma ParseKey(p: Period)
    ensures ParsePeriod(Key(p)) == Some(p)
  {
  }

  /** The start used for 'all': midnight, 1 January 2000 (UTC). */
  const AllTimeStart: int := 946_684_800_000

  /** How far back a rolling period reaches; none for 'all'. */
  function Lookback(p: Period): (r: Option<int>)
    ensures r.None? <==> p == AllTime
    ensures r.Some? ==> r.value > 0
  {
    match p
    case Day => Some(24 * MsPerHour)
    case Week => Some(7 * MsPerDay)
    case Month => Some(30 * MsPerDay)
    case Quarter => Some(90 * MsPerDay)
    case Year => Some(365 * MsPerDay)
    case AllTime => None
  }

  datatype DateRange = DateRange(start: int, end: int)

  /** The range a period covers when it ends at `now`. */
  function RangeOf(p: Period, now: int): (r: DateRange)
    ensures r.end == now
    ensures p != AllTime ==> r.start == now - Lookback(p).value
    ensures p == AllTime ==> r.start == AllTimeStart
  {
    match Lookback(p)
    case Some(ms) => DateRange(now - ms, now)
    case None => DateRange(AllTimeStart, now)
  }

  /**
   * `getDateRange`: the range for a period key, ending at `now`; an
   * unknown key gives the seven-day range.
   */
  function GetDateRange(period: string, now: int): (r: DateRange)
    ensures r.end == now
    ensures ParsePeriod(period).Some? ==> r == RangeOf(ParsePeriod(period).value, now)
    ensures ParsePeriod(period).None? ==> r == RangeOf(Week, now)
    ensures period == "24h" ==> r.start == now - 24 * MsPerHour
    ensures period == "7d" ==> r.start == now - 7 * MsPerDay
    ensures period == "30d" ==> r.start == now - 30 * MsPerDay
    ensures period == "90d" ==> r.start == now - 90 * MsPerDay
    ensures period == "1y" ==> r.start == now - 365 * MsPerDay
    ensures period == "all" ==> r.start == AllTimeStart
  {
    match ParsePeriod(period)
    case Some(p) => RangeOf(p, now)
    case None => RangeOf(Week, now)
  }

  /** An unknown key behaves exactly like '7d'. */
  lemma UnknownPeriodIsWeek(period: string, now: int)
    requires ParsePeriod(period).None?
    ensures GetDateRange(period, now) == GetDateRange("7d", now)
  {
  }

  /** Longer rolling periods start earlier, and every rolling range is non-empty. */
  lemma RollingStartsNested(now: int)
    ensures GetDateRange("1y", now).start < GetDateRange("90d", now).start
    ensures GetDateRange("90d", now).start < GetDateRange("30d", now).start
    ensures GetDateRange("30d", now).start < GetDateRange("7d", now).start
    ensures GetDateRange("7d", now).start < GetDateRange("24h", now).start
    ensures GetDateRange("24h", now).start < now
  {
  }

  /** Strictly after `start` and strictly before `end`. */
  function Inside(start: int, end: int): Point -> bool
  {
    (p: Point) => start < p.date && p.date < end
  }

  /**
   * `filterByDateRange`: the points dated strictly inside the range,
   * in their original order.
   */
  function FilterByDateRange(data: seq<Point>, start: int, end: int): (r: seq<Point>)
    ensures |r| <= |data|
    ensures forall x :: x in r <==> x in data && start < x.date < end
  {
    Where(data, Inside(start, end))
  }

  /** The filter keeps the points it keeps in their original relative order. */
  lemma FilterIsSubsequence(data: seq<Point>, start: int, end: int)
    ensures SubsequenceAt(FilterByDateRange(data, start, end), data, KeptIndices(data, Inside(start, end)))
  {
    WhereIsSubsequence(data, Inside(start, end));
  }

  /** Filtering to a range inside a range already filtered to is filtering once. */
  lemma FilterNarrows(data: seq<Point>, start: int, end: int, start': int, end': int)
    requires start <= start' && end' <= end
    ensures FilterByDateRange(FilterByDateRange(data, start, end), start', end')
         == FilterByDateRange(data, start', end')
  {
    WhereNarrower(data, Inside(start, end), Inside(start', end'));
  }

  /** Filtering twice with the same range is filtering once. */
  lemma FilterIdempotent(data: seq<Point>, start: int, end: int)
    ensures FilterByDateRange(FilterByDateRange(data, start, end), start, end)
         == FilterByDateRange(data, start, end)
  {
    FilterNarrows(data, start, end, start, end);
  }

  /** Restricting the last week's points to the last day gives the last day's points. */
  lemma DayWithinWeek(data: seq<Point>, now: int)
    ensures var week, day := GetDateRange("7d", now), GetDateRange("24h", now);
      FilterByDateRange(FilterByDateRange(data, week.start, week.end), day.start, day.end)
        == FilterByDateRange(data, day.start, day.end)
  {
    RollingStartsNested(now);
    var week, day := GetDateRange("7d", now), GetDateRange("24h", now);
    FilterNarrows(data, week.start, week.end, day.start, day.end);
  }

  /** The chart title for each period. */
  function Label(p: Period): (r: string)
    ensures r != CustomLabel
  {
    match p
    case Day => "Last 24 Hours"
    case Week => "Last 7 Days"
    case Month => "Last 30 Days"
    case Quarter => "Last 90 Days"
    case Year => "Last Year"
    case AllTime => "All Time"
  }

  const CustomLabel: string := "Custom Range"

  /** `getPeriodLabel`: the title of a known period, 'Custom Range' for anything else. */
  function GetPeriodLabel(period: string): (r: string)
    ensures r == CustomLabel <==> ParsePeriod(period).None?
    ensures ParsePeriod(period).Some? ==> r == Label(ParsePeriod(period).value)
  {
    match ParsePeriod(period)
    case Some(p) => Label(p)
    case None => CustomLabel
  }

  /** Distinct periods have distinct titles, so a title names its period. */
  lemma LabelsDistinct(p: Period, q: Period)
    ensures Label(p) == Label(q) <==> p == q
  {
  }
}

=== FILE: formatters.dfy ===
/**
 * Display formatting: the 'N/A' guard for missing values, the Robux
 * suffix, the sign prefix of percentages, the K/M/B tiers of compact
 * numbers, and the colour classes for the direction of a change. The
 * locale and fixed-point renderings of a number (`Intl.NumberFormat`,
 * `toFixed`, `toString`) are parameters.
 */
module Formatters {
  import opened Wrappers

  /** The text for a missing value. */
  const Missing: string := "N/A"

  const RobuxSuffix: string := " R$"

  /** `formatRobux`: the whole-number rendering followed by ' R$'. */
  function FormatRobux(value: Option<real>, render: real -> string): (r: string)
    ensures r == Missing <==> value.None?
    ensures value.Some? ==> |r| >= |RobuxSuffix| && r[|r| - |RobuxSuffix|..] == RobuxSuffix
    ensures value.Some? ==> r[..|r| - |RobuxSuffix|] == render(value.value)
  {
    match value
    case None => Missing
    case Some(v) =>
      var r := render(v) + RobuxSuffix;
      assert r[|r| - 1] == '$' && Missing[|Missing| - 1] == 'A';
      r
  }

  /** `formatNumber`: the grouped rendering, or 'N/A'. */
  function FormatNumber(value: Option<real>, render: real -> string): (r: string)
    ensures value.None? ==> r == Missing
    ensures value.Some? ==> r == render(value.value)
  {
    match value
    case None => Missing
    case Some(v) => render(v)
  }

  predicate StartsWithPlus(s: string) {
    |s| > 0 && s[0] == '+'
  }

  /** A fixed-point renderer never writes a leading '+' of its own, as `toFixed` does not. */
  ghost predicate NoLeadingPlus(toFixed: (real, nat) -> string) {
    forall x: real, d: nat :: !StartsWithPlus(toFixed(x, d))
  }

  /**
   * `formatPercent`: the value to `decimals` places and '%', with a '+'
   * in front exactly when it is positive; a negative value keeps the
   * renderer's own '-'.
   */
  function FormatPercent(value: Option<real>, decimals: nat, toFixed: (real, nat) -> string): (r: string)
    requires NoLeadingPlus(toFixed)
    ensures r == Missing <==> value.None?
    ensures value.Some? ==> (StartsWithPlus(r) <==> value.value > 0.0)
    ensures value.Some? ==> |r| > 0 && r[|r| - 1] == '%'
    ensures value.Some? ==>
      r == (if value.value > 0.0 then "+" else "") + toFixed(value.value, decimals) + "%"
  {
    match value
    case None => Missing
    case Some(v) =>
      var sign := if v > 0.0 then "+" else "";
      var r := sign + toFixed(v, decimals) + "%";
      assert v <= 0.0 ==> r[0] == (toFixed(v, decimals) + "%")[0];
      assert !StartsWithPlus(toFixed(v, decimals));
      assert r[|r| - 1] == '%' && Missing[|Missing| - 1] == 'A';
      r
  }

  // ---------------------------------------------------------------------
  // Compact numbers

  datatype Tier = Units | Thousands | Millions | Billions

  /** The largest tier whose threshold the value reaches; negatives stay in units. */
  function CompactTier(v: real): (t: Tier)
    ensures t == Billions <==> v >= 1_000_000_000.0
    ensures t == Millions <==> 1_000_000.0 <= v < 1_000_000_000.0
    ensures t == Thousands <==> 1_000.0 <= v < 1_000_000.0
    ensures t == Units <==> v < 1_000.0
  {
    if v >= 1_000_000_000.0 then Billions
    else if v >= 1_000_000.0 then Millions
    else if v >= 1_000.0 then Thousands
    else Units
  }

  function Scale(t: Tier): real
  {
    match t
    case Units => 1.0
    case Thousands => 1_000.0
    case Millions => 1_000_000.0
    case Billions => 1_000_000_000.0
  }

  function Suffix(t: Tier): string
  {
    match t
    case Units => ""
    case Thousands => "K"
    case Millions => "M"
    case Billions => "B"
  }

  /** In the K and M tiers the mantissa lies in [1, 1000); in the B tier it is at least 1. */
  lemma MantissaRange(v: real)
    ensures CompactTier(v) != Units ==> v / Scale(CompactTier(v)) >= 1.0
    ensures CompactTier(v) in {Thousands, Millions} ==> v / Scale(CompactTier(v)) < 1_000.0
  {
  }

  /** A tier letter, as read back from the end of a compact text. */
  predicate IsTierLetter(c: char) {
    c == 'K' || c == 'M' || c == 'B'
  }

  /** A plain number rendering never ends in a tier letter. */
  ghost predicate PlainNumber(render: real -> string) {
    forall x: real :: |render(x)| == 0 || !IsTierLetter(render(x)[|render(x)| - 1])
  }

  /** The suffix at the end of a compact text, or "" when there is none. */
  function SuffixOf(s: string): string
  {
    if |s| > 0 && IsTierLetter(s[|s| - 1]) then [s[|s| - 1]] else ""
  }

  /**
   * `formatCompact`: one decimal of the value in billions, millions or
   * thousands with its letter, or the plain value below a thousand. The
   * letter on the text is the tier of the value.
   */
  function FormatCompact(value: Option<real>, toFixed1: real -> string, show: real -> string): (r: string)
    requires PlainNumber(toFixed1) && PlainNumber(show)
    ensures value.None? ==> r == Missing
    ensures value.Some? ==> SuffixOf(r) == Suffix(CompactTier(value.value))
    ensures value.Some? && CompactTier(value.value) != Units ==>
      r == toFixed1(value.value / Scale(CompactTier(value.value))) + Suffix(CompactTier(value.value))
    ensures value.Some? && CompactTier(value.value) == Units ==> r == show(value.value)
  {
    match value
    case None => Missing
    case Some(v) =>
      if v >= 1_000_000_000.0 then toFixed1(v / 1_000_000_000.0) + "B"
      else if v >= 1_000_000.0 then toFixed1(v / 1_000_000.0) + "M"
      else if v >= 1_000.0 then toFixed1(v / 1_000.0) + "K"
      else show(v)
  }

  // ---------------------------------------------------------------------
  // Trend colours

  datatype Sign = Positive | Negative | Zero

  function SignOf(v: real): (s: Sign)
    ensures s == Positive <==> v > 0.0
    ensures s == Negative <==> v < 0.0
    ensures s == Zero <==> v == 0.0
  {
    if v > 0.0 then Positive else if v < 0.0 then Negative else Zero
  }

  /** The colour family for a direction: green up, red down, grey flat. */
  function Hue(s: Sign): string
  {
    match s
    case Positive => "green"
    case Negative => "red"
    case Zero => "gray"
  }

  /** `getTrendColor`: the text colour class for the sign of a change. */
  function GetTrendColor(v: real): (c: string)
    ensures c == "text-" + Hue(SignOf(v)) + "-600"
  {
    if v > 0.0 then "text-green-600"
    else if v < 0.0 then "text-red-600"
    else "text-gray-600"
  }

  /** The badge classes of one colour family: `bg-<hue>-50 text-<hue>-700`. */
  function BadgeOf(hue: string): string {
    "bg-" + hue + "-50 text-" + hue + "-700"
  }

  /** `getTrendBgColor`: the badge classes for the sign of a change. */
  function GetTrendBgColor(v: real): (c: string)
    ensures c == BadgeOf(Hue(SignOf(v)))
  {
    if v > 0.0 then BadgeOf("green")
    else if v < 0.0 then BadgeOf("red")
    else BadgeOf("gray")
  }

  /** Two changes get the same colour exactly when they have the same sign. */
  lemma TrendColorsBySign(a: real, b: real)
    ensures GetTrendColor(a) == GetTrendColor(b) <==> SignOf(a) == SignOf(b)
    ensures GetTrendBgColor(a) == GetTrendBgColor(b) <==> SignOf(a) == SignOf(b)
  {
    if SignOf(a) != SignOf(b) {
      // the three classes of each kind differ in length
      assert |GetTrendColor(a)| != |GetTrendColor(b)|;
      assert |GetTrendBgColor(a)| != |GetTrendBgColor(b)|;
    }
  }

  /** A percentage carries a '+' exactly when its change is coloured green. */
  lemma PlusMeansGreen(v: real, decimals: nat, toFixed: (real, nat) -> string)
    requires NoLeadingPlus(toFixed)
    ensures StartsWithPlus(FormatPercent(Some(v), decimals, toFixed)) <==> GetTrendColor(v) == "text-green-600"
  {
    if v <= 0.0 {
      assert |GetTrendColor(v)| != |"text-green-600"|;
    }
  }
}

=== FILE: numeric.dfy ===
/**
 * Numeric primitives the engine borrows from JavaScript: `Math.round`,
 * `Number.prototype.toFixed` followed by `parseFloat`, and `Math.sqrt`,
 * stated over exact reals.
 */
module Numeric {

  /** `Math.round`: the nearest integer, a half rounded upwards (towards +infinity). */
  function Round(x: real): (r: int)
    ensures x - 0.5 < r as real <= x + 0.5
  {
    (x + 0.5).Floor
  }

  lemma RoundMonotone(x: real, y: real)
    requires x <= y
    ensures Round(x) <= Round(y)
  {
  }

  lemma RoundOfInteger(n: int)
    ensures Round(n as real) == n
  {
  }

  /** Rounding a value that lies between two integers stays between them. */
  lemma RoundBetween(x: real, lo: int, hi: int)
    requires lo as real <= x <= hi as real
    ensures lo <= Round(x) <= hi
  {
    RoundMonotone(lo as real, x);
    RoundMonotone(x, hi as real);
    RoundOfInteger(lo);
    RoundOfInteger(hi);
  }

  /** A real with no fractional part. */
  predicate IsIntegral(x: real) {
    x.Floor as real == x
  }

  lemma RoundOfIntegral(x: real)
    requires IsIntegral(x)
    ensures Round(x) as real == x
  {
    RoundOfInteger(x.Floor);
  }

  /** A real that is a whole number of hundredths. */
  predicate IsCents(x: real) {
    (x * 100.0).Floor as real == x * 100.0
  }

  /** `k` hundredths, and how far that lies from `x` when `k` rounds `100 * x`. */
  function Cents(k: int): (r: real)
    ensures IsCents(r)
    ensures r * 100.0 == k as real
  {
    var r := k as real / 100.0;
    assert r * 100.0 == k as real;
    r
  }

  /**
   * `parseFloat(x.toFixed(2))`: the nearest multiple of 0.01, a half rounded
   * away from zero (toFixed rounds the decimal expansion, not the sign).
   */
  function ToFixed2(x: real): (r: real)
    ensures IsCents(r)
    ensures -0.005 <= r - x <= 0.005
    ensures x >= 0.0 ==> r >= 0.0
    ensures x <= 0.0 ==> r <= 0.0
  {
    if x >= 0.0 then Cents(Round(x * 100.0))
    else Cents(-Round(-x * 100.0))
  }

  lemma ToFixed2Monotone(x: real, y: real)
    requires x <= y
    ensures ToFixed2(x) <= ToFixed2(y)
  {
    if x >= 0.0 {
      RoundMonotone(x * 100.0, y * 100.0);
    } else if y < 0.0 {
      RoundMonotone(-y * 100.0, -x * 100.0);
    }
  }

  /** Whole hundredths are left as they are. */
  lemma ToFixed2OfCents(k: int)
    ensures ToFixed2(k as real / 100.0) == k as real / 100.0
  {
    if k >= 0 {
      assert k as real / 100.0 * 100.0 == k as real;
      RoundOfInteger(k);
    } else {
      assert -(k as real / 100.0) * 100.0 == (-k) as real;
      RoundOfInteger(-k);
    }
  }

  /** A value in [0, 100] keeps its bounds through two-decimal rounding. */
  lemma ToFixed2Percent(x: real)
    requires 0.0 <= x <= 100.0
    ensures 0.0 <= ToFixed2(x) <= 100.0
  {
    ToFixed2Monotone(x, 100.0);
    ToFixed2OfCents(10000);
  }

  /** `Math.round(x * 10) / 10`: the nearest tenth, a half rounded upwards. */
  function RoundTenth(x: real): (r: real)
    ensures IsIntegral(r * 10.0)
    ensures -0.05 < r - x <= 0.05
  {
    Round(x * 10.0) as real / 10.0
  }

  /** A product, with the signs it is known to have. */
  function Mul(a: real, b: real): (r: real)
    ensures a > 0.0 && b > 0.0 ==> r > 0.0
    ensures a >= 0.0 && b >= 0.0 ==> r >= 0.0
  {
    a * b
  }

  /** `Math.pow(d, 2)`: never negative, and zero only at zero. */
  function Square(d: real): (r: real)
    ensures r >= 0.0
    ensures r == 0.0 <==> d == 0.0
  {
    if d >= 0.0 then Mul(d, d) else Mul(-d, -d)
  }

  /** A product that vanishes with a positive factor has a vanishing other factor. */
  lemma ZeroFactor(a: real, b: real)
    requires a * b == 0.0 && b > 0.0
    ensures a == 0.0
  {
  }

  /** A number whose product with a positive factor is not positive is not positive. */
  lemma NotAbove(a: real, k: real)
    requires k > 0.0 && a * k <= 0.0
    ensures a <= 0.0
  {
  }

  /** Bounds on a total of `t` shares are bounds on one share. */
  lemma QuotientBetween(x: real, t: real, lo: real, hi: real)
    requires t > 0.0 && Mul(lo, t) <= x <= Mul(hi, t)
    ensures lo <= x / t <= hi
  {
  }

  function Max(a: real, b: real): real {
    if a >= b then a else b
  }

  function Min(a: real, b: real): real {
    if a <= b then a else b
  }

  /**
   * The only facts the model uses about `Math.sqrt`: on a non-negative
   * argument it is non-negative, and zero exactly when its argument is.
   */
  ghost predicate IsSqrt(sqrt: real -> real) {
    forall x: real :: 0.0 <= x ==> 0.0 <= sqrt(x) && (sqrt(x) == 0.0 <==> x == 0.0)
  }
}

=== FILE: predictor.dfy ===
/**
 * The price predictor: an ordinary least-squares line over the point
 * indices, an exponential and a simple moving average, their weighted
 * ensemble with a one-standard-deviation interval, the share of recent
 * rises, and a day-by-day projection of the fitted line.
 */
module Predictor {
  import opened Wrappers
  import opened Numeric
  import opened Series
  import Analytics

  // ---------------------------------------------------------------------
  // Least-squares line over the indices 0 .. n-1

  /** The sum of the indices below `n`: `sumX` for `n` points. */
  function IndexSum(n: nat): real
  {
    if n == 0 then 0.0 else IndexSum(n - 1) + (n - 1) as real
  }

  /** The sum of the squared indices below `n`: `sumX2` for `n` points. */
  function IndexSquareSum(n: nat): real
  {
    if n == 0 then 0.0 else IndexSquareSum(n - 1) + (n - 1) as real * (n - 1) as real
  }

  /** `sumXY`: each value weighted by its index. */
  function IndexValueSum(ys: seq<real>): real
    decreases |ys|
  {
    if |ys| == 0 then 0.0
    else IndexValueSum(ys[..|ys| - 1]) + (|ys| - 1) as real * ys[|ys| - 1]
  }

  lemma {:induction false} IndexSumsClosedForm(n: nat)
    ensures 2.0 * IndexSum(n) == n as real * (n as real - 1.0)
    ensures 6.0 * IndexSquareSum(n) == (n as real - 1.0) * n as real * (2.0 * n as real - 1.0)
  {
    if n > 0 {
      IndexSumsClosedForm(n - 1);
    }
  }

  /** The regression denominator `n * sumX2 - sumX * sumX`. */
  function Spread(n: nat): real
  {
    n as real * IndexSquareSum(n) - IndexSum(n) * IndexSum(n)
  }

  /** The denominator is `n^2 (n^2 - 1) / 12`, so two points suffice to make it positive. */
  lemma SpreadPositive(n: nat)
    requires n >= 2
    ensures 12.0 * Spread(n) == n as real * n as real * (n as real - 1.0) * (n as real + 1.0)
    ensures Spread(n) > 0.0
  {
    var m := n as real;
    var a, b := IndexSum(n), IndexSquareSum(n);
    IndexSumsClosedForm(n);
    assert 12.0 * Spread(n) == 2.0 * m * (6.0 * b) - 3.0 * (2.0 * a) * (2.0 * a);
    assert Mul(Mul(m, m), Mul(m - 1.0, m + 1.0)) > 0.0;
  }

  datatype Fit = Fit(slope: real, intercept: real)

  /** The fitted line's value at `x`. */
  function FitAt(f: Fit, x: real): real
  {
    f.slope * x + f.intercept
  }

  /** The sum of the residuals `y_i - f(i)`. */
  function ResidualSum(ys: seq<real>, f: Fit): real
    decreases |ys|
  {
    if |ys| == 0 then 0.0
    else ResidualSum(ys[..|ys| - 1], f) + (ys[|ys| - 1] - FitAt(f, (|ys| - 1) as real))
  }

  /** The sum of the residuals weighted by their index. */
  function IndexResidualSum(ys: seq<real>, f: Fit): real
    decreases |ys|
  {
    if |ys| == 0 then 0.0
    else
      var x := (|ys| - 1) as real;
      IndexResidualSum(ys[..|ys| - 1], f) + x * (ys[|ys| - 1] - FitAt(f, x))
  }

  /**
   * The normal equations of least squares: both partial derivatives of
   * the squared error vanish at `f`.
   */
  predicate NormalEquations(ys: seq<real>, f: Fit) {
    ResidualSum(ys, f) == 0.0 && IndexResidualSum(ys, f) == 0.0
  }

  /** How far `f` is from solving the first normal equation `sy = a sx + b n`. */
  function LevelGap(f: Fit, n: real, sx: real, sy: real): real {
    sy - f.slope * sx - f.intercept * n
  }

  /** How far `f` is from solving the second normal equation `sxy = a sxx + b sx`. */
  function MomentGap(f: Fit, sx: real, sxx: real, sxy: real): real {
    sxy - f.slope * sxx - f.intercept * sx
  }

  lemma {:induction false} ResidualSumExpand(ys: seq<real>, f: Fit)
    ensures ResidualSum(ys, f) == LevelGap(f, |ys| as real, IndexSum(|ys|), Sum(ys))
    decreases |ys|
  {
    if |ys| > 0 {
      ResidualSumExpand(ys[..|ys| - 1], f);
    }
  }

  lemma {:induction false} IndexResidualSumExpand(ys: seq<real>, f: Fit)
    ensures IndexResidualSum(ys, f) == MomentGap(f, IndexSum(|ys|), IndexSquareSum(|ys|), IndexValueSum(ys))
    decreases |ys|
  {
    if |ys| > 0 {
      var p, n := ys[..|ys| - 1], |ys|;
      var x, y := (n - 1) as real, ys[n - 1];
      IndexResidualSumExpand(p, f);
      assert IndexResidualSum(ys, f) == IndexResidualSum(p, f) + x * (y - FitAt(f, x));
      assert IndexSum(n) == IndexSum(n - 1) + x;
      assert IndexSquareSum(n) == IndexSquareSum(n - 1) + x * x;
      assert IndexValueSum(ys) == IndexValueSum(p) + x * y;
      MomentGapStep(f, IndexSum(n - 1), IndexSquareSum(n - 1), IndexValueSum(p), x, y);
    }
  }

  /** Adding the point `(x, y)` adds its weighted residual to the second gap. */
  lemma MomentGapStep(f: Fit, sx: real, sxx: real, sxy: real, x: real, y: real)
    ensures MomentGap(f, sx + x, sxx + x * x, sxy + x * y) == MomentGap(f, sx, sxx, sxy) + x * (y - FitAt(f, x))
  {
  }

  /** The normal equations in terms of the four running sums of the source. */
  lemma NormalEquationsBySums(ys: seq<real>, f: Fit)
    ensures NormalEquations(ys, f) <==>
      Solves(f, |ys| as real, IndexSum(|ys|), IndexSquareSum(|ys|), Sum(ys), IndexValueSum(ys))
  {
    ResidualSumExpand(ys, f);
    IndexResidualSumExpand(ys, f);
  }

  /** `f` solves `sy = a sx + b n` and `sxy = a sxx + b sx`. */
  predicate Solves(f: Fit, n: real, sx: real, sxx: real, sy: real, sxy: real) {
    LevelGap(f, n, sx, sy) == 0.0 && MomentGap(f, sx, sxx, sxy) == 0.0
  }

  /** Slope and intercept from the sums, as the source computes them. */
  function LeastSquares(n: real, sx: real, sxx: real, sy: real, sxy: real): (f: Fit)
    requires n > 0.0 && n * sxx - sx * sx != 0.0
    ensures Solves(f, n, sx, sxx, sy, sxy)
  {
    var d := n * sxx - sx * sx;
    var a := (n * sxy - sx * sy) / d;
    var b := (sy - a * sx) / n;
    CramerStep(n, sx, sxx, sy, sxy, d, a, b);
    Fit(a, b)
  }

  lemma CramerStep(n: real, sx: real, sxx: real, sy: real, sxy: real, d: real, a: real, b: real)
    requires n > 0.0 && d != 0.0 && d == n * sxx - sx * sx
    requires a * d == n * sxy - sx * sy && b * n == sy - a * sx
    ensures sy - a * sx - b * n == 0.0 && sxy - a * sxx - b * sx == 0.0
  {
    assert n * (sxy - a * sxx - b * sx) == n * sxy - a * d - sx * (b * n + a * sx) + a * sx * sx - a * sx * sx;
    ZeroFactor(sxy - a * sxx - b * sx, n);
  }

  /** With a positive determinant the two equations have one solution. */
  lemma SolutionUnique(f: Fit, g: Fit, n: real, sx: real, sxx: real, sy: real, sxy: real)
    requires n > 0.0 && n * sxx - sx * sx > 0.0
    requires Solves(f, n, sx, sxx, sy, sxy) && Solves(g, n, sx, sxx, sy, sxy)
    ensures f == g
  {
    var da, db := f.slope - g.slope, f.intercept - g.intercept;
    assert da * sx + db * n == 0.0;
    assert da * sxx + db * sx == 0.0;
    assert da * (n * sxx - sx * sx) == n * (da * sxx + db * sx) - sx * (da * sx + db * n);
    ZeroFactor(da, n * sxx - sx * sx);
    ZeroFactor(db, n);
  }

  /**
   * `linearRegression`: slope and intercept of the least-squares line
   * through the points `(i, value_i)`; they solve the normal equations.
   */
  function LinearRegression(s: seq<Point>): (f: Fit)
    requires |s| >= 2
    ensures NormalEquations(Values(s), f)
  {
    var ys := Values(s);
    SpreadPositive(|s|);
    var f := LeastSquares(|s| as real, IndexSum(|s|), IndexSquareSum(|s|), Sum(ys), IndexValueSum(ys));
    NormalEquationsBySums(ys, f);
    f
  }

  /** From two points on, the normal equations have exactly one solution. */
  lemma NormalEquationsUnique(ys: seq<real>, f: Fit, g: Fit)
    requires |ys| >= 2
    requires NormalEquations(ys, f) && NormalEquations(ys, g)
    ensures f == g
  {
    NormalEquationsBySums(ys, f);
    NormalEquationsBySums(ys, g);
    SpreadPositive(|ys|);
    SolutionUnique(f, g, |ys| as real, IndexSum(|ys|), IndexSquareSum(|ys|), Sum(ys), IndexValueSum(ys));
  }

  /** Every value lies on the line `f`. */
  predicate OnLine(ys: seq<real>, f: Fit) {
    forall i :: 0 <= i < |ys| ==> ys[i] == FitAt(f, i as real)
  }

  lemma {:induction false} OnLineResidualsVanish(ys: seq<real>, f: Fit)
    requires OnLine(ys, f)
    ensures NormalEquations(ys, f)
    decreases |ys|
  {
    if |ys| > 0 {
      var p := ys[..|ys| - 1];
      assert OnLine(p, f) by {
        forall i | 0 <= i < |p| ensures p[i] == FitAt(f, i as real) {
          assert p[i] == ys[i];
        }
      }
      OnLineResidualsVanish(p, f);
    }
  }

  /** Points that lie exactly on a line are fitted by that line. */
  lemma RegressionRecoversLine(s: seq<Point>, f: Fit)
    requires |s| >= 2 && OnLine(Values(s), f)
    ensures LinearRegression(s) == f
  {
    OnLineResidualsVanish(Values(s), f);
    NormalEquationsUnique(Values(s), LinearRegression(s), f);
  }

  // ---------------------------------------------------------------------
  // Linear prediction

  /** Extrapolation of the fitted line at index `x`, clamped at zero and rounded. */
  function ClampedRound(v: real): (r: int)
    ensures r >= 0
    ensures v >= 0.0 ==> v - 0.5 < r as real <= v + 0.5
    ensures v <= 0.0 ==> r == 0
  {
    RoundOfInteger(0);
    RoundMonotone(0.0, Max(0.0, v));
    Round(Max(0.0, v))
  }

  /**
   * `predictPriceLinear`: the fitted line `daysAhead` steps past the last
   * point, i.e. at index `n + daysAhead - 1`; no prediction below three points.
   */
  function PredictPriceLinear(s: seq<Point>, daysAhead: int): (r: Option<int>)
    ensures r.None? <==> |s| < 3
    ensures r.Some? ==> r.value >= 0
    ensures r.Some? ==> forall f :: NormalEquations(Values(s), f) ==>
      r.value == ClampedRound(FitAt(f, (|s| + daysAhead - 1) as real))
  {
    if |s| < 3 then None
    else
      OnlySolution(s);
      Some(ClampedRound(FitAt(LinearRegression(s), (|s| + daysAhead - 1) as real)))
  }

  /** The fitted line is the only solution of the normal equations. */
  lemma OnlySolution(s: seq<Point>)
    requires |s| >= 2
    ensures forall f :: NormalEquations(Values(s), f) ==> f == LinearRegression(s)
  {
    forall f | NormalEquations(Values(s), f) ensures f == LinearRegression(s) {
      NormalEquationsUnique(Values(s), f, LinearRegression(s));
    }
  }

  /** On points along a line, the prediction continues that line. */
  lemma PredictLinearContinuesLine(s: seq<Point>, daysAhead: int, f: Fit)
    requires |s| >= 3 && OnLine(Values(s), f)
    ensures PredictPriceLinear(s, daysAhead) == Some(ClampedRound(FitAt(f, (|s| + daysAhead - 1) as real)))
  {
    RegressionRecoversLine(s, f);
  }

  // ---------------------------------------------------------------------
  // Exponential moving average

  /** The smoothing factor `2 / (period + 1)`. */
  function Smoothing(period: int): (k: real)
    requires period >= 1
    ensures 0.0 < k <= 1.0
    ensures k * (period + 1) as real == 2.0
  {
    2.0 / (period + 1) as real
  }

  /** One EMA update: the new value weighted by `k`, the running average by `1 - k`. */
  function EmaStep(ema: real, v: real, k: real): (r: real)
    ensures r - ema == k * (v - ema)
  {
    v * k + ema * (1.0 - k)
  }

  /**
   * The EMA loop: the updates for `vs`, in order, starting from `ema`.
   * The last update is applied to the result of all the earlier ones.
   */
  function EmaFold(ema: real, vs: seq<real>, k: real): (r: real)
    ensures |vs| == 0 ==> r == ema
    ensures |vs| > 0 ==> r == EmaStep(EmaFold(ema, vs[..|vs| - 1], k), vs[|vs| - 1], k)
    decreases |vs|
  {
    if |vs| == 0 then ema
    else
      var first := EmaStep(ema, vs[0], k);
      assert |vs| > 1 ==> vs[1..][..|vs| - 2] == vs[..|vs| - 1][1..];
      EmaFold(first, vs[1..], k)
  }

  /**
   * The unrounded EMA of a series with at least `period` values, defined
   * from the end: the mean of the first `period` values, then one update
   * per later value.
   */
  function EmaValue(vs: seq<real>, period: int): real
    requires 1 <= period <= |vs|
    decreases |vs|
  {
    if |vs| == period then Mean(vs)
    else EmaStep(EmaValue(vs[..|vs| - 1], period), vs[|vs| - 1], Smoothing(period))
  }

  /** With exactly `period` values the EMA is their mean. */
  lemma EmaValueSeed(vs: seq<real>, period: int)
    requires 1 <= period == |vs|
    ensures EmaValue(vs, period) == Sum(vs) / period as real
  {
  }

  /** Each later value moves the EMA by one update with factor 2 / (period + 1). */
  lemma EmaValueSnoc(vs: seq<real>, v: real, period: int)
    requires 1 <= period <= |vs|
    ensures EmaValue(vs + [v], period) == EmaStep(EmaValue(vs, period), v, Smoothing(period))
  {
    assert (vs + [v])[..|vs|] == vs;
  }

  /** The loop from the seed over the values after position `j` ends at the EMA of the whole series. */
  lemma {:induction false} EmaFoldIsEmaValue(vs: seq<real>, period: int, j: int)
    requires period <= j <= |vs| && 1 <= period
    ensures EmaFold(EmaValue(vs[..j], period), vs[j..], Smoothing(period)) == EmaValue(vs, period)
    decreases |vs|
  {
    if j < |vs| {
      var n, k := |vs|, Smoothing(period);
      var p, t := vs[..n - 1], vs[j..];
      var e := EmaValue(vs[..j], period);
      assert p[..j] == vs[..j] && p[j..] == t[..|t| - 1];
      assert t[|t| - 1] == vs[n - 1];
      EmaFoldIsEmaValue(p, period, j);
      assert EmaFold(e, t[..|t| - 1], k) == EmaValue(p, period);
      assert EmaFold(e, t, k) == EmaStep(EmaValue(p, period), vs[n - 1], k);
    } else {
      assert vs[..j] == vs;
    }
  }

  /** An update between two bounds stays between them. */
  lemma EmaStepBetween(ema: real, v: real, k: real, lo: real, hi: real)
    requires 0.0 < k <= 1.0
    requires lo <= ema <= hi && lo <= v <= hi
    ensures lo <= EmaStep(ema, v, k) <= hi
  {
    assert Mul(v - lo, k) >= 0.0 && Mul(ema - lo, 1.0 - k) >= 0.0;
    assert Mul(hi - v, k) >= 0.0 && Mul(hi - ema, 1.0 - k) >= 0.0;
  }

  lemma {:induction false} EmaFoldBetween(ema: real, vs: seq<real>, k: real, lo: real, hi: real)
    requires 0.0 < k <= 1.0
    requires lo <= ema <= hi
    requires forall i :: 0 <= i < |vs| ==> lo <= vs[i] <= hi
    ensures lo <= EmaFold(ema, vs, k) <= hi
    decreases |vs|
  {
    if |vs| > 0 {
      EmaStepBetween(ema, vs[0], k, lo, hi);
      EmaFoldBetween(EmaStep(ema, vs[0], k), vs[1..], k, lo, hi);
    }
  }

  /**
   * `calculateEMA`: seeded with the mean of the first `period` values,
   * then updated with each later value; no value below `period` points.
   * The rounded result lies between the rounded extremes of the series.
   */
  function CalculateEMA(s: seq<Point>, period: int): (r: Option<int>)
    requires period >= 1
    ensures r.None? <==> |s| < period
    ensures r.Some? ==> Round(SeqMin(Values(s))) <= r.value <= Round(SeqMax(Values(s)))
    ensures r.Some? ==> r.value == Round(EmaValue(Values(s), period))
  {
    if |s| < period then None
    else
      var vs := Values(s);
      var seed := Sum(vs[..period]) / period as real;
      var ema := EmaFold(seed, vs[period..], Smoothing(period));
      EmaBetweenExtremes(vs, period, seed, ema);
      EmaFoldIsEmaValue(vs, period, period);
      assert EmaValue(vs[..period], period) == seed;
      Some(Round(ema))
  }

  lemma EmaBetweenExtremes(vs: seq<real>, period: int, seed: real, ema: real)
    requires 1 <= period <= |vs|
    requires seed == Sum(vs[..period]) / period as real
    requires ema == EmaFold(seed, vs[period..], Smoothing(period))
    ensures Round(SeqMin(vs)) <= Round(ema) <= Round(SeqMax(vs))
  {
    var lo, hi := SeqMin(vs), SeqMax(vs);
    MeanBetween(vs[..period], lo, hi);
    EmaFoldBetween(seed, vs[period..], Smoothing(period), lo, hi);
    RoundMonotone(lo, ema);
    RoundMonotone(ema, hi);
  }

  /** A flat series has its own value as EMA. */
  lemma EmaOfConstant(s: seq<Point>, period: int)
    requires 1 <= period <= |s| && Constant(Values(s))
    ensures CalculateEMA(s, period) == Some(Round(s[0].value))
  {
    var vs, r := Values(s), CalculateEMA(s, period);
    assert r.Some?;
    ExtremesOfConstant(vs);
    var level := Round(s[0].value);
    assert Round(SeqMin(vs)) == level && Round(SeqMax(vs)) == level;
    assert r.value == level;
  }

  // ---------------------------------------------------------------------
  // Moving-average prediction

  /**
   * `predictPriceMA`: the rounded mean of the last `period` values; it is
   * the last point of the simple moving average of the same period.
   */
  function PredictPriceMA(s: seq<Point>, period: int): (r: Option<int>)
    requires period >= 1
    ensures r.None? <==> |s| < period
    ensures r.Some? ==> r.value as real == Analytics.SmaAt(s, period, |s| - 1)
    ensures r.Some? ==>
      Round(SeqMin(Values(Last(s, period)))) <= r.value <= Round(SeqMax(Values(Last(s, period))))
  {
    if |s| < period then None
    else
      var recent := Last(s, period);
      assert recent == Analytics.WindowEndingAt(s, period, |s| - 1);
      Some(Round(Sum(Values(recent)) / period as real))
  }

  // ---------------------------------------------------------------------
  // Weighted ensemble

  /** A component prediction, possibly missing, with its weight. */
  datatype Weighted = Weighted(value: Option<int>, weight: real)

  /** `.filter(p => p.value !== null)`. */
  function Present(ws: seq<Weighted>): (p: seq<Weighted>)
    ensures |p| <= |ws|
    ensures forall w :: w in p <==> w in ws && w.value.Some?
    decreases |ws|
  {
    if |ws| == 0 then []
    else
      var w := ws[|ws| - 1];
      Present(ws[..|ws| - 1]) + (if w.value.Some? then [w] else [])
  }

  predicate AllPresent(ps: seq<Weighted>) {
    forall i :: 0 <= i < |ps| ==> ps[i].value.Some?
  }

  predicate PositiveWeights(ps: seq<Weighted>) {
    forall i :: 0 <= i < |ps| ==> ps[i].weight > 0.0
  }

  /** The component values, as reals. */
  function PresentValues(ps: seq<Weighted>): (vs: seq<real>)
    requires AllPresent(ps)
    ensures |vs| == |ps|
    ensures forall i :: 0 <= i < |ps| ==> vs[i] == ps[i].value.value as real
  {
    seq(|ps|, i requires 0 <= i < |ps| => ps[i].value.value as real)
  }

  /** `predictions.reduce((sum, p) => sum + p.value * p.weight, 0)`. */
  function WeightedSum(ps: seq<Weighted>): real
    requires AllPresent(ps)
    decreases |ps|
  {
    if |ps| == 0 then 0.0
    else
      var w := ps[|ps| - 1];
      WeightedSum(ps[..|ps| - 1]) + w.value.value as real * w.weight
  }

  /** `predictions.reduce((sum, p) => sum + p.weight, 0)`. */
  function TotalWeight(ps: seq<Weighted>): (t: real)
    requires PositiveWeights(ps)
    ensures |ps| > 0 ==> t > 0.0
    decreases |ps|
  {
    if |ps| == 0 then 0.0 else TotalWeight(ps[..|ps| - 1]) + ps[|ps| - 1].weight
  }

  /** What one component adds to the weighted sum: nothing when it is missing. */
  function Term(w: Weighted): real {
    match w.value
    case None => 0.0
    case Some(v) => v as real * w.weight
  }

  /** What one component adds to the total weight: nothing when it is missing. */
  function Share(w: Weighted): real {
    if w.value.Some? then w.weight else 0.0
  }

  /** The weighted sum over all components, without filtering. */
  function Dot(ws: seq<Weighted>): real
    decreases |ws|
  {
    if |ws| == 0 then 0.0 else Dot(ws[..|ws| - 1]) + Term(ws[|ws| - 1])
  }

  /** The total weight of the components that are present, without filtering. */
  function Mass(ws: seq<Weighted>): real
    decreases |ws|
  {
    if |ws| == 0 then 0.0 else Mass(ws[..|ws| - 1]) + Share(ws[|ws| - 1])
  }

  /** Filtering out the missing components and then summing is summing with missing ones counted as nothing. */
  lemma {:induction false} PresentSums(ws: seq<Weighted>)
    requires PositiveWeights(ws)
    ensures AllPresent(Present(ws)) && PositiveWeights(Present(ws))
    ensures WeightedSum(Present(ws)) == Dot(ws)
    ensures TotalWeight(Present(ws)) == Mass(ws)
    decreases |ws|
  {
    PresentIsAllPresent(ws);
    if |ws| > 0 {
      var p, w := ws[..|ws| - 1], ws[|ws| - 1];
      assert PositiveWeights(p) by {
        forall i | 0 <= i < |p| ensures p[i].weight > 0.0 {
          assert p[i] == ws[i];
        }
      }
      PresentSums(p);
      var pp := Present(p);
      if w.value.Some? {
        assert Present(ws) == pp + [w];
        AppendPresent(pp, w);
      } else {
        assert Present(ws) == pp;
      }
      assert Dot(ws) == Dot(p) + Term(w);
      assert Mass(ws) == Mass(p) + Share(w);
    }
  }

  /** Appending a present component adds its term and its weight. */
  lemma AppendPresent(ps: seq<Weighted>, w: Weighted)
    requires AllPresent(ps) && PositiveWeights(ps) && w.value.Some? && w.weight > 0.0
    ensures AllPresent(ps + [w]) && PositiveWeights(ps + [w])
    ensures WeightedSum(ps + [w]) == WeightedSum(ps) + Term(w)
    ensures TotalWeight(ps + [w]) == TotalWeight(ps) + Share(w)
  {
    assert (ps + [w])[..|ps|] == ps;
  }

  /** A weighted sum lies between the extremes times the total weight. */
  lemma {:induction false} WeightedSumBetween(ps: seq<Weighted>, lo: real, hi: real)
    requires AllPresent(ps) && PositiveWeights(ps)
    requires forall i :: 0 <= i < |ps| ==> lo <= ps[i].value.value as real <= hi
    ensures Mul(lo, TotalWeight(ps)) <= WeightedSum(ps) <= Mul(hi, TotalWeight(ps))
    decreases |ps|
  {
    if |ps| > 0 {
      var p, w := ps[..|ps| - 1], ps[|ps| - 1];
      assert forall i :: 0 <= i < |p| ==> p[i] == ps[i];
      WeightedSumBetween(p, lo, hi);
      var v, tp := w.value.value as real, TotalWeight(p);
      assert lo <= v <= hi && w.weight > 0.0;
      assert TotalWeight(ps) == tp + w.weight;
      assert WeightedSum(ps) == WeightedSum(p) + v * w.weight;
      WeightedStep(lo, hi, v, w.weight, tp, WeightedSum(p), TotalWeight(ps), WeightedSum(ps));
    } else {
      assert Mul(lo, 0.0) == 0.0 && Mul(hi, 0.0) == 0.0;
    }
  }

  /** Adding one weighted value keeps the weighted sum between the bounds. */
  lemma WeightedStep(lo: real, hi: real, v: real, w: real, t: real, acc: real, total: real, sum: real)
    requires lo <= v <= hi && w > 0.0
    requires Mul(lo, t) <= acc <= Mul(hi, t)
    requires total == t + w && sum == acc + v * w
    ensures Mul(lo, total) <= sum <= Mul(hi, total)
  {
    assert Mul(v - lo, w) >= 0.0 && Mul(hi - v, w) >= 0.0;
  }

  lemma WeightedMeanBetween(ps: seq<Weighted>)
    requires |ps| > 0 && AllPresent(ps) && PositiveWeights(ps)
    ensures SeqMin(PresentValues(ps)) <= WeightedSum(ps) / TotalWeight(ps) <= SeqMax(PresentValues(ps))
  {
    var vs := PresentValues(ps);
    var lo, hi := SeqMin(vs), SeqMax(vs);
    assert forall i :: 0 <= i < |ps| ==> lo <= ps[i].value.value as real <= hi by {
      forall i | 0 <= i < |ps| ensures lo <= ps[i].value.value as real <= hi {
        assert vs[i] == ps[i].value.value as real;
      }
    }
    WeightedSumBetween(ps, lo, hi);
    QuotientBetween(WeightedSum(ps), TotalWeight(ps), lo, hi);
  }

  /** Every value of a component list is a whole number. */
  lemma PresentValuesIntegral(ps: seq<Weighted>)
    requires |ps| > 0 && AllPresent(ps)
    ensures IsIntegral(SeqMin(PresentValues(ps))) && IsIntegral(SeqMax(PresentValues(ps)))
  {
  }

  lemma PresentIsAllPresent(ws: seq<Weighted>)
    ensures AllPresent(Present(ws))
    ensures PositiveWeights(ws) ==> PositiveWeights(Present(ws))
  {
    var ps := Present(ws);
    forall i | 0 <= i < |ps| ensures ps[i].value.Some? && ps[i] in ws {
      assert ps[i] in ps;
    }
  }

  /** The values of the components that are present, in order. */
  function Available(ws: seq<Weighted>): (vs: seq<real>)
    ensures |vs| == |Present(ws)|
    ensures |vs| == 0 <==> forall i :: 0 <= i < |ws| ==> ws[i].value.None?
    ensures forall i :: 0 <= i < |ws| && ws[i].value.Some? ==> ws[i].value.value as real in vs
    ensures forall x :: x in vs ==> exists w :: w in ws && w.value == Some(x.Floor) && x == x.Floor as real
  {
    PresentIsAllPresent(ws);
    AvailableFacts(ws);
    PresentValues(Present(ws))
  }

  lemma AvailableFacts(ws: seq<Weighted>)
    requires AllPresent(Present(ws))
    ensures var vs := PresentValues(Present(ws));
      && (|vs| == 0 <==> forall i :: 0 <= i < |ws| ==> ws[i].value.None?)
      && (forall i :: 0 <= i < |ws| && ws[i].value.Some? ==> ws[i].value.value as real in vs)
      && (forall x :: x in vs ==> exists w :: w in ws && w.value == Some(x.Floor) && x == x.Floor as real)
  {
    var ps := Present(ws);
    var vs := PresentValues(ps);
    forall i | 0 <= i < |ws| && ws[i].value.Some? ensures ws[i].value.value as real in vs {
      assert ws[i] in ws;
      var j :| 0 <= j < |ps| && ps[j] == ws[i];
      assert vs[j] == ws[i].value.value as real;
    }
    forall x | x in vs ensures exists w :: w in ws && w.value == Some(x.Floor) && x == x.Floor as real {
      var j :| 0 <= j < |vs| && vs[j] == x;
      assert ps[j] in ps;
    }
    if |vs| == 0 {
      forall i | 0 <= i < |ws| ensures ws[i].value.None? {
        assert ws[i] in ws;
      }
    } else {
      assert ps[0] in ps;
    }
  }

  /**
   * The rounded weighted mean of the components that are present; none
   * when every component is missing. It lies between the smallest and
   * largest present component.
   */
  function Blend(ws: seq<Weighted>): (r: Option<int>)
    requires PositiveWeights(ws)
    ensures r.None? <==> forall i :: 0 <= i < |ws| ==> ws[i].value.None?
    ensures r.Some? ==>
      |Available(ws)| > 0 && SeqMin(Available(ws)) <= r.value as real <= SeqMax(Available(ws))
    ensures r.Some? ==> Mass(ws) > 0.0 && r.value == Round(Dot(ws) / Mass(ws))
  {
    var ps := Present(ws);
    PresentIsAllPresent(ws);
    PresentSums(ws);
    if |ps| == 0 then
      None
    else
      var m := WeightedSum(ps) / TotalWeight(ps);
      var vs := Available(ws);
      assert vs == PresentValues(ps);
      WeightedMeanBetween(ps);
      PresentValuesIntegral(ps);
      RoundMonotone(SeqMin(vs), m);
      RoundMonotone(m, SeqMax(vs));
      RoundOfIntegral(SeqMin(vs));
      RoundOfIntegral(SeqMax(vs));
      Some(Round(m))
  }

  /** When every present component agrees, the blend is that value. */
  lemma BlendUnanimous(ws: seq<Weighted>, v: int)
    requires PositiveWeights(ws)
    requires exists i :: 0 <= i < |ws| && ws[i].value.Some?
    requires forall i :: 0 <= i < |ws| && ws[i].value.Some? ==> ws[i].value.value == v
    ensures Blend(ws) == Some(v)
  {
    var vs := Available(ws);
    assert forall x :: x in vs ==> x == v as real by {
      forall x | x in vs ensures x == v as real {
        var w :| w in ws && w.value == Some(x.Floor) && x == x.Floor as real;
        var i :| 0 <= i < |ws| && ws[i] == w;
      }
    }
    assert SeqMin(vs) == v as real && SeqMax(vs) == v as real;
  }

  // ---------------------------------------------------------------------
  // Prediction with interval and confidence

  datatype PredictionKind = InsufficientData | NoPredictions | WeightedEnsemble

  datatype Components = Components(linear: Option<int>, ema: Option<int>, ma: Option<int>)

  datatype Prediction = Prediction(
    predicted: Option<int>,
    confidence: Option<int>,
    lower: Option<int>,
    upper: Option<int>,
    kind: PredictionKind,
    components: Option<Components>)

  /** Below this many points there is no prediction at all. */
  const EnsembleMinPoints: int := 7
  const EmaPeriod: int := 10
  const MaPeriod: int := 7
  /** The number of points at which the data confidence saturates. */
  const FullDataPoints: int := 30

  /** Linear 40%, EMA 40%, moving average 20%. */
  function Weights(c: Components): (ws: seq<Weighted>)
    ensures PositiveWeights(ws)
    ensures |ws| == 3
    ensures Dot(ws) == Term(Weighted(c.linear, 0.4)) + Term(Weighted(c.ema, 0.4)) + Term(Weighted(c.ma, 0.2))
    ensures Mass(ws) == Share(Weighted(c.linear, 0.4)) + Share(Weighted(c.ema, 0.4)) + Share(Weighted(c.ma, 0.2))
    ensures c.linear.Some? && c.ema.Some? && c.ma.Some? ==> Mass(ws) == 1.0
  {
    var ws := [Weighted(c.linear, 0.4), Weighted(c.ema, 0.4), Weighted(c.ma, 0.2)];
    assert ws[..1][..0] == [] && ws[..2][..1] == ws[..1] && ws[..3] == ws;
    assert Dot(ws[..1]) == Term(ws[0]);
    assert Mass(ws[..1]) == Mass(ws[..1][..0]) + Share(ws[0]);
    assert Dot(ws[..2]) == Dot(ws[..1]) + Term(ws[1]) && Mass(ws[..2]) == Mass(ws[..1]) + Share(ws[1]);
    ws
  }

  /**
   * One standard deviation either side of the prediction, the lower end
   * clamped at zero, both rounded.
   */
  function Interval(predicted: int, sd: real): (b: (int, int))
    requires sd >= 0.0
    ensures b.0 >= 0 && predicted <= b.1
    ensures predicted >= 0 ==> b.0 <= predicted
    ensures predicted as real - sd >= 0.0 ==> predicted as real - sd - 0.5 < b.0 as real <= predicted as real - sd + 0.5
    ensures predicted as real - sd <= 0.0 ==> b.0 == 0
    ensures predicted as real + sd - 0.5 < b.1 as real <= predicted as real + sd + 0.5
  {
    RoundOfInteger(predicted);
    RoundMonotone(predicted as real, predicted as real + sd);
    if predicted >= 0 then
      RoundMonotone(Max(0.0, predicted as real - sd), predicted as real);
      (ClampedRound(predicted as real - sd), Round(predicted as real + sd))
    else
      (ClampedRound(predicted as real - sd), Round(predicted as real + sd))
  }

  /** The data score: the share of thirty points present, in percent, capped at 100. */
  function DataScore(n: nat): (d: real)
    ensures 0.0 <= d <= 100.0
    ensures n >= FullDataPoints ==> d == 100.0
    ensures n < FullDataPoints ==> d * FullDataPoints as real == n as real * 100.0
  {
    Min(100.0, n as real / FullDataPoints as real * 100.0)
  }

  /**
   * The volatility score: 100 less the coefficient of variation in
   * percent, not below 0. At a zero mean the source divides by zero: with
   * no dispersion that is 0/0, NaN, which `None` stands for; with some it
   * is +Infinity, whose score is 0.
   */
  function VolatilityScore(sd: real, mean: real): (v: Option<real>)
    requires sd >= 0.0
    ensures v.None? <==> mean == 0.0 && sd == 0.0
    ensures v.Some? ==> v.value >= 0.0
    ensures mean > 0.0 ==> v.Some? && v.value <= 100.0
    ensures mean < 0.0 || (0.0 < mean && sd <= mean) ==> v.Some? && v.value * mean == 100.0 * (mean - sd)
    ensures 0.0 < mean <= sd || (mean == 0.0 && sd > 0.0) ==> v == Some(0.0)
  {
    if mean == 0.0 then (if sd == 0.0 then None else Some(0.0))
    else
      var cv := sd / mean;
      assert cv * mean == sd;
      assert mean > 0.0 ==> cv >= 0.0;
      assert mean > 0.0 && sd <= mean ==> cv <= 1.0;
      assert mean > 0.0 && mean <= sd ==> cv >= 1.0;
      assert mean < 0.0 ==> cv <= 0.0;
      Some(Max(0.0, 100.0 - cv * 100.0))
  }

  /**
   * The rounded mean of the data and volatility scores. It is never
   * negative, at most 100 at a positive mean, and NaN (`None`) exactly
   * when the series has zero mean and zero deviation.
   */
  function Confidence(n: nat, sd: real, mean: real): (c: Option<int>)
    requires sd >= 0.0
    ensures c.None? <==> mean == 0.0 && sd == 0.0
    ensures c.Some? ==> c.value >= 0
    ensures mean > 0.0 ==> c.Some? && c.value <= 100
    ensures c.Some? ==> var x := (DataScore(n) + VolatilityScore(sd, mean).value) / 2.0;
      x - 0.5 < c.value as real <= x + 0.5
  {
    match VolatilityScore(sd, mean)
    case None => None
    case Some(v) =>
      var x := (DataScore(n) + v) / 2.0;
      RoundMonotone(0.0, x);
      RoundOfInteger(0);
      if mean > 0.0 then
        RoundBetween(x, 0, 100);
        Some(Round(x))
      else
        Some(Round(x))
  }

  /** More history never lowers the confidence. */
  lemma ConfidenceGrowsWithData(n: nat, m: nat, sd: real, mean: real)
    requires sd >= 0.0 && n <= m
    ensures Confidence(n, sd, mean).Some? ==> Confidence(n, sd, mean).value <= Confidence(m, sd, mean).value
  {
    var k := FullDataPoints as real;
    assert n as real / k * 100.0 <= m as real / k * 100.0;
    if VolatilityScore(sd, mean).Some? {
      var v := VolatilityScore(sd, mean).value;
      RoundMonotone((DataScore(n) + v) / 2.0, (DataScore(m) + v) / 2.0);
    }
  }

  /** More dispersion, at a positive mean, never raises the confidence. */
  lemma ConfidenceFallsWithVolatility(n: nat, sd: real, sd': real, mean: real)
    requires mean > 0.0 && 0.0 <= sd <= sd'
    ensures Confidence(n, sd', mean).value <= Confidence(n, sd, mean).value
  {
    assert sd' / mean - sd / mean == (sd' - sd) / mean;
    assert sd / mean <= sd' / mean;
    RoundMonotone((DataScore(n) + VolatilityScore(sd', mean).value) / 2.0,
                  (DataScore(n) + VolatilityScore(sd, mean).value) / 2.0);
  }

  /**
   * `predictPrice`: below seven points, no prediction; otherwise the
   * rounded weighted mean of the linear, EMA(10) and MA(7) predictions
   * that exist, a one-standard-deviation interval around it, and a
   * confidence score, which is NaN (`None`) exactly for an all-zero
   * history.
   */
  function PredictPrice(s: seq<Point>, daysAhead: int, sqrt: real -> real): (r: Prediction)
    requires IsSqrt(sqrt)
    ensures r.kind == InsufficientData <==> |s| < EnsembleMinPoints
    ensures |s| < EnsembleMinPoints ==> r == Prediction(None, Some(0), None, None, InsufficientData, None)
    ensures r.kind != NoPredictions
    ensures |s| >= EnsembleMinPoints ==>
      && r.kind == WeightedEnsemble
      && r.components == Some(Components(
           PredictPriceLinear(s, daysAhead), CalculateEMA(s, EmaPeriod), PredictPriceMA(s, MaPeriod)))
      && r.components.value.linear.Some? && r.components.value.ma.Some?
      && (r.components.value.ema.Some? <==> |s| >= EmaPeriod)
      && r.predicted.Some? && r.lower.Some? && r.upper.Some?
    ensures |s| >= EnsembleMinPoints ==>
      var avail := Available(Weights(r.components.value));
      |avail| > 0 && SeqMin(avail) <= r.predicted.value as real <= SeqMax(avail)
    ensures |s| >= EnsembleMinPoints ==> 0 <= r.lower.value && r.predicted.value <= r.upper.value
    ensures |s| >= EnsembleMinPoints && NonNegative(s) ==> r.lower.value <= r.predicted.value
    ensures r.confidence.None? <==> |s| >= EnsembleMinPoints && forall i :: 0 <= i < |s| ==> s[i].value == 0.0
    ensures r.confidence.Some? ==> r.confidence.value >= 0
    ensures |s| >= EnsembleMinPoints && Sum(Values(s)) > 0.0 ==> r.confidence.Some? && r.confidence.value <= 100
  {
    if |s| < EnsembleMinPoints then
      Prediction(None, Some(0), None, None, InsufficientData, None)
    else
      var c := Components(PredictPriceLinear(s, daysAhead), CalculateEMA(s, EmaPeriod), PredictPriceMA(s, MaPeriod));
      var blended := Blend(Weights(c));
      assert Weights(c)[0].value.Some?;
      var predicted := blended.value;
      var prices := Values(s);
      var sd := StdDev(prices, sqrt);
      var bounds := Interval(predicted, sd);
      PredictionNonNegative(s, c, daysAhead, predicted);
      MeanSign(prices);
      AllZeroIff(s, sqrt);
      Prediction(Some(predicted), Confidence(|s|, sd, Mean(prices)), Some(bounds.0), Some(bounds.1),
                 WeightedEnsemble, Some(c))
  }

  /** Linear 40%, EMA 40% and moving average 20% of a total weight of 1, rounded. */
  function FullBlend(l: int, e: int, m: int): int {
    Round((0.4 * l as real + 0.4 * e as real + 0.2 * m as real) / 1.0)
  }

  /** Linear 40% and moving average 20% of the remaining weight 0.6, rounded. */
  function PartialBlend(l: int, m: int): int {
    Round((0.4 * l as real + 0.2 * m as real) / 0.6)
  }

  /**
   * The predicted price in closed form from ten points on: 40% linear,
   * 40% EMA and 20% moving average, over a total weight of 1.
   */
  lemma PredictedByAllWeights(s: seq<Point>, daysAhead: int, sqrt: real -> real)
    requires IsSqrt(sqrt) && |s| >= EmaPeriod
    ensures PredictPrice(s, daysAhead, sqrt).predicted == Some(FullBlend(
      PredictPriceLinear(s, daysAhead).value, CalculateEMA(s, EmaPeriod).value, PredictPriceMA(s, MaPeriod).value))
  {
    var c := Components(PredictPriceLinear(s, daysAhead), CalculateEMA(s, EmaPeriod), PredictPriceMA(s, MaPeriod));
    PredictedIsBlend(s, daysAhead, sqrt);
    EnsembleClosedForm(c);
  }

  /**
   * The predicted price in closed form from seven to nine points, where
   * there is no EMA: 40% linear and 20% moving average, over the 0.6 of
   * weight that is left.
   */
  lemma PredictedWithoutEma(s: seq<Point>, daysAhead: int, sqrt: real -> real)
    requires IsSqrt(sqrt) && EnsembleMinPoints <= |s| < EmaPeriod
    ensures PredictPrice(s, daysAhead, sqrt).predicted
      == Some(PartialBlend(PredictPriceLinear(s, daysAhead).value, PredictPriceMA(s, MaPeriod).value))
  {
    var c := Components(PredictPriceLinear(s, daysAhead), CalculateEMA(s, EmaPeriod), PredictPriceMA(s, MaPeriod));
    PredictedIsBlend(s, daysAhead, sqrt);
    EnsembleClosedForm(c);
  }

  /** The prediction is the blend of the three component predictions. */
  lemma PredictedIsBlend(s: seq<Point>, daysAhead: int, sqrt: real -> real)
    requires IsSqrt(sqrt) && |s| >= EnsembleMinPoints
    ensures PredictPrice(s, daysAhead, sqrt).predicted
      == Blend(Weights(Components(PredictPriceLinear(s, daysAhead), CalculateEMA(s, EmaPeriod), PredictPriceMA(s, MaPeriod))))
  {
  }

  /**
   * The interval is one standard deviation of the prices either side of
   * the prediction, and the confidence is scored from the number of
   * points, that deviation and the mean price.
   */
  lemma PredictionSpread(s: seq<Point>, daysAhead: int, sqrt: real -> real)
    requires IsSqrt(sqrt) && |s| >= EnsembleMinPoints
    ensures var r := PredictPrice(s, daysAhead, sqrt);
      r.predicted.Some? && r.lower.Some? && r.upper.Some? &&
      (r.lower.value, r.upper.value) == Interval(r.predicted.value, StdDev(Values(s), sqrt))
    ensures PredictPrice(s, daysAhead, sqrt).confidence == Confidence(|s|, StdDev(Values(s), sqrt), Mean(Values(s)))
  {
  }

  /**
   * The blend of the three components in closed form: with all three,
   * 40/40/20 over a total weight of 1; with no EMA, linear and moving
   * average over the 0.6 of weight that is left.
   */
  lemma EnsembleClosedForm(c: Components)
    requires c.linear.Some? && c.ma.Some?
    ensures Blend(Weights(c)).Some?
    ensures c.ema.Some? ==> Blend(Weights(c)).value == FullBlend(c.linear.value, c.ema.value, c.ma.value)
    ensures c.ema.None? ==> Blend(Weights(c)).value == PartialBlend(c.linear.value, c.ma.value)
  {
    BlendOfWeights(c);
    WeightsQuotient(c);
  }

  lemma BlendOfWeights(c: Components)
    requires c.linear.Some?
    ensures Mass(Weights(c)) > 0.0
    ensures Blend(Weights(c)) == Some(Round(Dot(Weights(c)) / Mass(Weights(c))))
  {
    assert Weights(c)[0].value.Some?;
  }

  /** The weighted mean of the three components, term by term. */
  lemma WeightsQuotient(c: Components)
    requires c.linear.Some? && c.ma.Some?
    ensures Mass(Weights(c)) > 0.0
    ensures c.ema.Some? ==>
      Dot(Weights(c)) / Mass(Weights(c))
        == (0.4 * c.linear.value as real + 0.4 * c.ema.value as real + 0.2 * c.ma.value as real) / 1.0
    ensures c.ema.None? ==>
      Dot(Weights(c)) / Mass(Weights(c)) == (0.4 * c.linear.value as real + 0.2 * c.ma.value as real) / 0.6
  {
    WeightsClosedForm(c);
    var l, m := c.linear.value as real, c.ma.value as real;
    if c.ema.Some? {
      SameQuotient(Dot(Weights(c)), Mass(Weights(c)), 0.4 * l + 0.4 * c.ema.value as real + 0.2 * m, 1.0);
    } else {
      SameQuotient(Dot(Weights(c)), Mass(Weights(c)), 0.4 * l + 0.2 * m, 0.6);
    }
  }

  lemma SameQuotient(d: real, t: real, x: real, k: real)
    requires d == x && t == k && k != 0.0
    ensures d / t == x / k
  {
  }

  /** The weighted sum and total weight of the three components, term by term. */
  lemma WeightsClosedForm(c: Components)
    requires c.linear.Some? && c.ma.Some?
    ensures c.ema.Some? ==>
      && Dot(Weights(c)) == 0.4 * c.linear.value as real + 0.4 * c.ema.value as real + 0.2 * c.ma.value as real
      && Mass(Weights(c)) == 1.0
    ensures c.ema.None? ==>
      && Dot(Weights(c)) == 0.4 * c.linear.value as real + 0.2 * c.ma.value as real
      && Mass(Weights(c)) == 0.6
  {
  }

  /** A history has zero mean and zero deviation exactly when every price is zero. */
  lemma AllZeroIff(s: seq<Point>, sqrt: real -> real)
    requires |s| > 0 && IsSqrt(sqrt)
    ensures (Mean(Values(s)) == 0.0 && StdDev(Values(s), sqrt) == 0.0)
      <==> forall i :: 0 <= i < |s| ==> s[i].value == 0.0
  {
    var vs := Values(s);
    if Constant(vs) {
      MeanOfConstant(vs);
    }
  }

  /** Non-negative prices give non-negative components, hence a non-negative blend. */
  lemma PredictionNonNegative(s: seq<Point>, c: Components, daysAhead: int, predicted: int)
    requires |s| >= EnsembleMinPoints
    requires c == Components(PredictPriceLinear(s, daysAhead), CalculateEMA(s, EmaPeriod), PredictPriceMA(s, MaPeriod))
    requires Blend(Weights(c)) == Some(predicted)
    ensures NonNegative(s) ==> predicted >= 0
  {
    if NonNegative(s) {
      EmaNonNegative(s, EmaPeriod);
      MaNonNegative(s, MaPeriod);
      BlendNonNegative(Weights(c));
    }
  }

  lemma EmaNonNegative(s: seq<Point>, period: int)
    requires period >= 1 && NonNegative(s)
    ensures CalculateEMA(s, period).Some? ==> CalculateEMA(s, period).value >= 0
  {
    if |s| >= period {
      RoundOfInteger(0);
      RoundMonotone(0.0, SeqMin(Values(s)));
    }
  }

  lemma MaNonNegative(s: seq<Point>, period: int)
    requires period >= 1 && NonNegative(s)
    ensures PredictPriceMA(s, period).Some? ==> PredictPriceMA(s, period).value >= 0
  {
    if |s| >= period {
      var recent := Values(Last(s, period));
      assert recent[0] == Last(s, period)[0].value;
      RoundOfInteger(0);
      RoundMonotone(0.0, SeqMin(recent));
    }
  }

  lemma BlendNonNegative(ws: seq<Weighted>)
    requires PositiveWeights(ws)
    requires forall w :: w in ws && w.value.Some? ==> w.value.value >= 0
    ensures Blend(ws).Some? ==> Blend(ws).value >= 0
  {
    if Blend(ws).Some? {
      var avail := Available(ws);
      var m := SeqMin(avail);
      var w :| w in ws && w.value == Some(m.Floor) && m == m.Floor as real;
    }
  }

  /**
   * A flat positive history predicts its own (rounded) level, and the
   * interval collapses onto it.
   */
  lemma PredictionOfFlatSeries(s: seq<Point>, daysAhead: int, sqrt: real -> real)
    requires IsSqrt(sqrt) && |s| >= EnsembleMinPoints
    requires Constant(Values(s)) && s[0].value > 0.0
    ensures Sum(Values(s)) > 0.0
    ensures var r := PredictPrice(s, daysAhead, sqrt);
      && r.predicted == Some(Round(s[0].value))
      && r.lower == r.predicted && r.upper == r.predicted
  {
    var vs, level := Values(s), s[0].value;
    FlatSumPositive(vs);
    var c := Components(PredictPriceLinear(s, daysAhead), CalculateEMA(s, EmaPeriod), PredictPriceMA(s, MaPeriod));
    FlatComponents(s, daysAhead);
    BlendAgreeing(c, Round(level));
    assert StdDev(vs, sqrt) == 0.0;
    RoundMonotone(0.0, level);
    RoundOfInteger(0);
    IntervalCollapses(Round(level));
  }

  lemma BlendAgreeing(c: Components, v: int)
    requires c.linear == Some(v) && c.ma == Some(v)
    requires c.ema.Some? ==> c.ema.value == v
    ensures Blend(Weights(c)) == Some(v)
  {
    var ws := Weights(c);
    assert ws[0].value.Some?;
    BlendUnanimous(ws, v);
  }

  /** With no dispersion the interval is the prediction itself. */
  lemma IntervalCollapses(p: int)
    requires p >= 0
    ensures Interval(p, 0.0) == (p, p)
  {
  }

  lemma FlatSumPositive(vs: seq<real>)
    requires |vs| > 0 && Constant(vs) && vs[0] > 0.0
    ensures Sum(vs) > 0.0
  {
    SumBounds(vs, vs[0], vs[0]);
    assert Mul(vs[0], |vs| as real) > 0.0;
  }

  /** On a flat positive history every component predicts the rounded level. */
  lemma FlatComponents(s: seq<Point>, daysAhead: int)
    requires |s| >= EnsembleMinPoints
    requires Constant(Values(s)) && s[0].value > 0.0
    ensures PredictPriceLinear(s, daysAhead) == Some(Round(s[0].value))
    ensures PredictPriceMA(s, MaPeriod) == Some(Round(s[0].value))
    ensures CalculateEMA(s, EmaPeriod).Some? ==> CalculateEMA(s, EmaPeriod).value == Round(s[0].value)
  {
    var vs, level := Values(s), s[0].value;
    var line := Fit(0.0, level);
    assert OnLine(vs, line);
    PredictLinearContinuesLine(s, daysAhead, line);
    assert FitAt(line, (|s| + daysAhead - 1) as real) == level;
    if |s| >= EmaPeriod {
      EmaOfConstant(s, EmaPeriod);
    }
    MaOfConstant(s, MaPeriod);
  }

  /** A flat series has its own value as moving-average prediction. */
  lemma MaOfConstant(s: seq<Point>, period: int)
    requires 1 <= period <= |s| && Constant(Values(s))
    ensures PredictPriceMA(s, period) == Some(Round(s[0].value))
  {
    var r, ws := PredictPriceMA(s, period), Values(Last(s, period));
    assert r.Some?;
    LastOfConstant(s, period);
    ExtremesOfConstant(ws);
    var level := Round(s[0].value);
    assert Round(SeqMin(ws)) == level && Round(SeqMax(ws)) == level;
    assert r.value == level;
  }

  // ---------------------------------------------------------------------
  // Probability of an increase

  /** The window of recent points the probability looks at. */
  const RecentWindow: int := 10

  /** The positions `i` at which the value rises from position `i - 1`. */
  function Rises(vs: seq<real>): set<int> {
    set i | 1 <= i < |vs| && RisesAt(vs, i)
  }

  predicate RisesAt(vs: seq<real>, i: int)
    requires 1 <= i < |vs|
  {
    vs[i - 1] < vs[i]
  }

  /** The loop's count of steps where a value exceeds its predecessor. */
  function CountRises(vs: seq<real>): (c: nat)
    ensures c <= if |vs| == 0 then 0 else |vs| - 1
    decreases |vs|
  {
    if |vs| <= 1 then 0
    else
      var n := |vs|;
      CountRises(vs[..n - 1]) + (if vs[n - 1] > vs[n - 2] then 1 else 0)
  }

  /** The loop counts exactly the positions at which the value rises. */
  lemma {:induction false} CountRisesIsRises(vs: seq<real>)
    ensures CountRises(vs) == |Rises(vs)|
    decreases |vs|
  {
    if |vs| <= 1 {
      assert Rises(vs) == {};
    } else {
      var n := |vs|;
      CountRisesIsRises(vs[..n - 1]);
      RisesSnoc(vs);
    }
  }

  /** One more value adds its position to the rises exactly when it exceeds its predecessor. */
  lemma RisesSnoc(vs: seq<real>)
    requires |vs| >= 2
    ensures var n := |vs|;
      Rises(vs) == Rises(vs[..n - 1]) + (if vs[n - 2] < vs[n - 1] then {n - 1} else {})
    ensures |vs| - 1 !in Rises(vs[..|vs| - 1])
  {
    var n := |vs|;
    var p := vs[..n - 1];
    assert forall i :: 0 <= i < n - 1 ==> p[i] == vs[i];
    assert forall i :: 1 <= i < n - 1 ==> RisesAt(p, i) == RisesAt(vs, i);
  }

  predicate StrictlyIncreasing(vs: seq<real>) {
    forall i :: 0 < i < |vs| ==> vs[i - 1] < vs[i]
  }

  predicate NonIncreasing(vs: seq<real>) {
    forall i :: 0 < i < |vs| ==> vs[i] <= vs[i - 1]
  }

  /** Every step is a rise exactly when the sequence increases strictly; none is exactly when it never rises. */
  lemma {:induction false} CountRisesExtremes(vs: seq<real>)
    requires |vs| >= 1
    ensures CountRises(vs) == |vs| - 1 <==> StrictlyIncreasing(vs)
    ensures CountRises(vs) == 0 <==> NonIncreasing(vs)
    decreases |vs|
  {
    if |vs| > 1 {
      var n := |vs|;
      var p := vs[..n - 1];
      CountRisesExtremes(p);
      var c := CountRises(p);
      assert c <= n - 2;
      assert CountRises(vs) == c + (if vs[n - 1] > vs[n - 2] then 1 else 0);
      assert forall i :: 0 <= i < |p| ==> p[i] == vs[i];
      if StrictlyIncreasing(vs) {
        assert StrictlyIncreasing(p);
      }
      if NonIncreasing(vs) {
        assert NonIncreasing(p);
      }
    }
  }

  /** `Math.round(c / d * 100)`: `c` out of `d` as a whole percentage. */
  function Percent(c: int, d: int): int
    requires d >= 1
  {
    Round(c as real / d as real * 100.0)
  }

  /**
   * The percentage `x` of `c` steps out of `k`, for at most nine steps:
   * 100 for all of them, at most 89 for fewer, at least 11 for one or
   * more, 0 for none. `c` is a whole count, which the two implications on
   * it say.
   */
  lemma ShareBounds(c: real, k: real, x: real)
    requires 1.0 <= k <= 9.0 && 0.0 <= c <= k && x * k == c * 100.0
    requires c < k ==> c <= k - 1.0
    requires c > 0.0 ==> c >= 1.0
    ensures 0.0 <= x <= 100.0
    ensures c == k ==> x == 100.0
    ensures c < k ==> x <= 89.0
    ensures c > 0.0 ==> x >= 11.0
    ensures c == 0.0 ==> x == 0.0
  {
    // x * k <= 100 (k - 1) <= 89 k when c < k, and x * k >= 100 >= 11 k when c >= 1
    assert (x - 100.0) * k == c * 100.0 - 100.0 * k;
    NotAbove(x - 100.0, k);
    assert (-x) * k == -(c * 100.0);
    NotAbove(-x, k);
    if c == k {
      assert (x - 100.0) * k == 0.0;
      ZeroFactor(x - 100.0, k);
    }
    if c < k {
      assert c * 100.0 <= 100.0 * k - 100.0 <= 89.0 * k;
      assert (x - 89.0) * k == c * 100.0 - 89.0 * k;
      NotAbove(x - 89.0, k);
    }
    if c > 0.0 {
      assert 11.0 * k <= 100.0 <= c * 100.0;
      assert (11.0 - x) * k == 11.0 * k - c * 100.0;
      NotAbove(11.0 - x, k);
    }
    if c == 0.0 {
      assert x * k == 0.0;
      ZeroFactor(x, k);
    }
  }

  /** A share `c / d` of at most nine steps, in percent: 100 only for all, 0 only for none. */
  lemma ShareExtremes(c: nat, d: int)
    requires 1 <= d <= RecentWindow - 1 && c <= d
    ensures 0 <= Percent(c, d) <= 100
    ensures Percent(c, d) == 100 <==> c == d
    ensures Percent(c, d) == 0 <==> c == 0
  {
    var x := c as real / d as real * 100.0;
    ShareBounds(c as real, d as real, x);
    RoundBetween(x, 0, 100);
    if c < d {
      RoundMonotone(x, 89.0);
      RoundOfInteger(89);
    } else {
      RoundOfInteger(100);
    }
    if c > 0 {
      RoundMonotone(11.0, x);
      RoundOfInteger(11);
    } else {
      RoundOfInteger(0);
    }
  }

  /** The share of rises among the steps of a short run, in percent, and its extremes. */
  lemma RisesShare(w: seq<real>)
    requires 2 <= |w| <= RecentWindow
    ensures var x := Percent(CountRises(w), |w| - 1);
      && 0 <= x <= 100
      && (x == 100 <==> StrictlyIncreasing(w))
      && (x == 0 <==> NonIncreasing(w))
      && x == Percent(|Rises(w)|, |w| - 1)
  {
    CountRisesIsRises(w);
    CountRisesExtremes(w);
    ShareExtremes(CountRises(w), |w| - 1);
  }

  /**
   * `calculatePriceIncreaseProbability`: the percentage of rises among
   * the steps of the last ten points; 50 below two points. It is 100
   * exactly when those points rise strictly and 0 exactly when they never rise.
   */
  function CalculatePriceIncreaseProbability(s: seq<Point>): (r: int)
    ensures |s| < 2 ==> r == 50
    ensures 0 <= r <= 100
    ensures |s| >= 2 ==> (r == 100 <==> StrictlyIncreasing(Values(Last(s, RecentWindow))))
    ensures |s| >= 2 ==> (r == 0 <==> NonIncreasing(Values(Last(s, RecentWindow))))
    ensures |s| >= 2 ==> var w := Values(Last(s, RecentWindow));
      r == Percent(|Rises(w)|, |w| - 1)
  {
    if |s| < 2 then 50
    else
      var recent := Values(Last(s, RecentWindow));
      RisesShare(recent);
      Percent(CountRises(recent), |recent| - 1)
  }

  // ---------------------------------------------------------------------
  // Projection

  datatype ProjectedPoint = ProjectedPoint(date: int, value: int, isProjected: bool)

  /**
   * `generatePriceProjection`: for each of the next `days` days, the
   * fitted line one step further on, clamped at zero and rounded, dated
   * that many days after `now`; nothing below three points.
   */
  method GeneratePriceProjection(s: seq<Point>, days: int, now: int) returns (projection: seq<ProjectedPoint>)
    ensures |s| < 3 ==> projection == []
    ensures |s| >= 3 ==> |projection| == if days < 0 then 0 else days
    ensures forall i :: 0 <= i < |projection| ==>
      && projection[i].isProjected
      && projection[i].value >= 0
      && projection[i].date == now + (i + 1) * MsPerDay
    ensures forall i :: 0 <= i < |projection| ==> PredictPriceLinear(s, i + 1) == Some(projection[i].value)
  {
    projection := [];
    if |s| < 3 {
      return;
    }
    var fit := LinearRegression(s);
    var i := 1;
    while i <= days
      invariant 1 <= i && |projection| == i - 1
      invariant days >= 0 ==> i <= days + 1
      invariant days < 0 ==> i == 1
      invariant forall j :: 0 <= j < |projection| ==>
        && projection[j].isProjected
        && projection[j].value >= 0
        && projection[j].date == now + (j + 1) * MsPerDay
      invariant forall j :: 0 <= j < |projection| ==> PredictPriceLinear(s, j + 1) == Some(projection[j].value)
    {
      var futureIndex := |s| + i - 1;
      var value := ClampedRound(FitAt(fit, futureIndex as real));
      assert PredictPriceLinear(s, i) == Some(value);
      projection := projection + [ProjectedPoint(now + i * MsPerDay, value, true)];
      i := i + 1;
    }
  }
}

=== FILE: scenarios.dfy ===
/**
 * Worked examples: concrete series and the outputs the engine gives for
 * them, stated as lemmas over the model.
 */
module Scenarios {
  import opened Wrappers
  import opened Numeric
  import opened Series
  import opened Analytics
  import opened Predictor

  /** Daily points, one per value, starting at time 0. */
  function Daily(vs: seq<real>): (s: seq<Point>)
    ensures |s| == |vs| && Values(s) == vs
    ensures forall i :: 0 <= i < |s| ==> s[i].date == i * MsPerDay
  {
    seq(|vs|, i requires 0 <= i < |vs| => Point(i * MsPerDay, vs[i]))
  }

  /** On a series already in ascending order, the median is the middle point, upper for even lengths. */
  lemma MedianOfAscending(s: seq<Point>)
    requires |s| > 0 && Sorted(Values(s))
    ensures CalculatePriceStats(s).median == s[|s| / 2].value
  {
    SortAscOfSorted(Values(s));
  }

  /**
   * With four values the median is the upper middle one: for 10, 20, 30,
   * 40 it is 30, not the average 25.
   */
  lemma MedianTieBreak(a: real, b: real, c: real, d: real)
    requires a <= b <= c <= d
    ensures CalculatePriceStats(Daily([a, b, c, d])).median == c
  {
    var s := Daily([a, b, c, d]);
    assert Values(s) == [a, b, c, d];
    assert Sorted(Values(s));
    MedianOfAscending(s);
    assert s[|s| / 2].value == c;
  }

  /** A rise of exactly 5% is still Stable; 5.1% is Rising. */
  lemma TrendBoundary()
    ensures TrendOf(100.0, 105.0) == Stable
    ensures TrendOf(1000.0, 1051.0) == Rising
  {
  }

  const Week: seq<real> := [100.0, 102.0, 104.0, 103.0, 105.0, 108.0, 110.0]

  /** Seven daily prices from 100 to 110: a 10% move, so Rising. */
  lemma WeekIsRising()
    ensures DetectTrend(Daily(Week)) == Rising
  {
    var s := Daily(Week);
    assert Last(s, 7) == s;
    assert s[0].value == 100.0 && s[6].value == 110.0;
  }

  /** The same week gets a weighted-ensemble prediction, with no EMA component. */
  lemma WeekIsPredicted(sqrt: real -> real)
    requires IsSqrt(sqrt)
    ensures Sum(Week) > 0.0
    ensures var r := PredictPrice(Daily(Week), 1, sqrt);
      r.kind == WeightedEnsemble && r.predicted.Some? && r.components.value.ema.None?
  {
    var vs := Week;
    SumBounds(vs, 100.0, 110.0);
  }

  /** Below seven points there is no prediction. */
  lemma ShortHistoryIsInsufficient(sqrt: real -> real)
    requires IsSqrt(sqrt)
    ensures var r := PredictPrice(Daily([1.0, 2.0, 3.0, 4.0, 5.0, 6.0]), 1, sqrt);
      r.kind == InsufficientData && r.predicted.None?
  {
  }

  /** Ten strictly rising prices give probability 100; ten strictly falling ones give 0. */
  lemma IncreaseProbabilityExtremes()
    ensures CalculatePriceIncreaseProbability(Daily(seq(10, i => 100.0 + i as real))) == 100
    ensures CalculatePriceIncreaseProbability(Daily(seq(10, i => 100.0 - i as real))) == 0
  {
    var up, down := Daily(seq(10, i => 100.0 + i as real)), Daily(seq(10, i => 100.0 - i as real));
    assert Last(up, RecentWindow) == up && Last(down, RecentWindow) == down;
    assert StrictlyIncreasing(Values(up));
    assert NonIncreasing(Values(down));
  }

  const Zigzag: seq<real> := [1.0, 2.0, 1.0, 2.0, 1.0, 2.0, 1.0, 2.0, 1.0, 2.0]

  /** Ten points alternating down and up rise on five of their nine steps: 5/9 is 55.6%, rounded to 56. */
  lemma ZigzagProbability()
    ensures CalculatePriceIncreaseProbability(Daily(Zigzag)) == 56
  {
    var s := Daily(Zigzag);
    assert Last(s, RecentWindow) == s;
    var w := Values(s);
    assert Rises(w) == {1, 3, 5, 7, 9} by {
      forall i | 1 <= i < |w| ensures RisesAt(w, i) <==> i % 2 == 1 { }
    }
    assert |{1, 3, 5, 7, 9}| == 5;
    assert 5 as real / 9 as real * 100.0 == 500.0 / 9.0;
    assert 55.5 < 500.0 / 9.0 < 56.5;
  }

  /** No volume at all: every rollup is zero. */
  lemma EmptyVolume(now: int)
    ensures CalculateVolumeStats([], now) == VolumeStats(0.0, 0.0, 0.0, 0.0, 0.0)
  {
  }

  /**
   * Two points, both older than the 24-hour window: the change is taken
   * against the first (oldest) point, 100 to 120, i.e. +20 and +20%.
   */
  lemma StaleWindowFallsBackToOldest()
    ensures CalculatePriceChange(Daily([100.0, 120.0]), 24, 10 * MsPerDay) == PriceChange(20.0, 20.0)
  {
    var s := Daily([100.0, 120.0]);
    assert forall i :: 0 <= i < |s| ==> s[i].date <= 10 * MsPerDay - 24 * MsPerHour;
    ToFixed2OfCents(2000);
    assert (120.0 - 100.0) / 100.0 * 100.0 == 2000 as real / 100.0;
  }

  /** A flat series of a non-zero price has zero volatility. */
  lemma FlatSeriesHasNoVolatility(v: real, sqrt: real -> real)
    requires v != 0.0 && IsSqrt(sqrt)
    ensures Sum([v, v, v]) != 0.0
    ensures CalculateVolatility(Daily([v, v, v]), sqrt) == Some(0.0)
  {
    assert [v, v, v][..2] == [v, v] && [v, v][..1] == [v] && [v][..0] == [];
    assert Sum([v]) == v;
    assert Sum([v, v]) == 2.0 * v;
    assert Sum([v, v, v]) == 3.0 * v;
  }
}

=== FILE: series.dfy ===
/**
 * Price and volume series: sequences of dated points, and the folds the
 * engine runs over them (sums, means, extrema, filtering, sorting, spread).
 * Timestamps are integer milliseconds; values are exact reals.
 */
module Series {
  import opened Numeric

  /** Fixed hour and day lengths; calendar and daylight-saving shifts are not modelled. */
  const MsPerHour: int := 3_600_000
  const MsPerDay: int := 24 * MsPerHour

  /** One observation: a trade price, or a day's trade count, at a timestamp. */
  datatype Point = Point(date: int, value: real)

  /** No negative value: prices and trade counts as the data source delivers them. */
  predicate NonNegative(s: seq<Point>) {
    forall i :: 0 <= i < |s| ==> s[i].value >= 0.0
  }

  /** `points.map(p => p.value)`. */
  function Values(s: seq<Point>): (vs: seq<real>)
    ensures |vs| == |s|
    ensures forall i :: 0 <= i < |s| ==> vs[i] == s[i].value
  {
    seq(|s|, i requires 0 <= i < |s| => s[i].value)
  }

  lemma ValuesAppend(a: seq<Point>, b: seq<Point>)
    ensures Values(a + b) == Values(a) + Values(b)
  {
  }

  /** `reduce((a, b) => a + b, 0)`: a left fold, so the last element is added last. */
  function Sum(xs: seq<real>): real
    decreases |xs|
  {
    if |xs| == 0 then 0.0 else Sum(xs[..|xs| - 1]) + xs[|xs| - 1]
  }

  lemma {:induction false} SumAppend(a: seq<real>, b: seq<real>)
    ensures Sum(a + b) == Sum(a) + Sum(b)
    decreases |b|
  {
    if |b| > 0 {
      assert (a + b)[..|a + b| - 1] == a + b[..|b| - 1];
      SumAppend(a, b[..|b| - 1]);
    } else {
      assert a + b == a;
    }
  }

  /** A sum of `n` values that lie in [lo, hi] lies in [n * lo, n * hi]. */
  lemma {:induction false} SumBounds(xs: seq<real>, lo: real, hi: real)
    requires forall i :: 0 <= i < |xs| ==> lo <= xs[i] <= hi
    ensures lo * |xs| as real <= Sum(xs) <= hi * |xs| as real
    decreases |xs|
  {
    if |xs| > 0 {
      var p := xs[..|xs| - 1];
      SumBounds(p, lo, hi);
      assert lo * |xs| as real == lo * |p| as real + lo;
      assert hi * |xs| as real == hi * |p| as real + hi;
    }
  }

  /** `s.slice(-k)` for `k >= 1`: the last `k` elements, or all of them when there are fewer. */
  function Last<T>(s: seq<T>, k: int): (r: seq<T>)
    requires k >= 1
    ensures |r| == if |s| < k then |s| else k
    ensures r == s[|s| - |r|..]
  {
    if |s| < k then s else s[|s| - k..]
  }

  /** The arithmetic mean; callers guarantee a non-empty sequence. */
  function Mean(xs: seq<real>): real
    requires |xs| > 0
  {
    Sum(xs) / |xs| as real
  }

  /** The mean has the sign of the sum. */
  lemma MeanSign(xs: seq<real>)
    requires |xs| > 0
    ensures Sum(xs) > 0.0 ==> Mean(xs) > 0.0
    ensures Mean(xs) == 0.0 <==> Sum(xs) == 0.0
  {
  }

  /** The mean of values in [lo, hi] lies in [lo, hi]. */
  lemma MeanBetween(xs: seq<real>, lo: real, hi: real)
    requires |xs| > 0
    requires forall i :: 0 <= i < |xs| ==> lo <= xs[i] <= hi
    ensures lo <= Mean(xs) <= hi
  {
    SumBounds(xs, lo, hi);
    QuotientBetween(Sum(xs), |xs| as real, lo, hi);
  }

  /** All values equal the first one. */
  predicate Constant(xs: seq<real>) {
    forall i :: 0 <= i < |xs| ==> xs[i] == xs[0]
  }

  lemma MeanOfConstant(xs: seq<real>)
    requires |xs| > 0 && Constant(xs)
    ensures Mean(xs) == xs[0]
  {
    MeanBetween(xs, xs[0], xs[0]);
  }

  /** The smallest value of a non-empty sequence. */
  function SeqMin(xs: seq<real>): (m: real)
    requires |xs| > 0
    ensures m in xs
    ensures forall i :: 0 <= i < |xs| ==> m <= xs[i]
  {
    if |xs| == 1 then xs[0]
    else
      var rest := SeqMin(xs[1..]);
      assert forall i :: 1 <= i < |xs| ==> xs[i] == xs[1..][i - 1];
      Min(xs[0], rest)
  }

  /** The largest value of a non-empty sequence. */
  function SeqMax(xs: seq<real>): (m: real)
    requires |xs| > 0
    ensures m in xs
    ensures forall i :: 0 <= i < |xs| ==> xs[i] <= m
  {
    if |xs| == 1 then xs[0]
    else
      var rest := SeqMax(xs[1..]);
      assert forall i :: 1 <= i < |xs| ==> xs[i] == xs[1..][i - 1];
      Max(xs[0], rest)
  }

  /** A constant sequence has its one value as minimum and maximum. */
  lemma ExtremesOfConstant(xs: seq<real>)
    requires |xs| > 0 && Constant(xs)
    ensures SeqMin(xs) == xs[0] && SeqMax(xs) == xs[0]
  {
  }

  /** The last points of a constant series are constant, at the same value. */
  lemma LastOfConstant(s: seq<Point>, k: int)
    requires k >= 1 && |s| > 0 && Constant(Values(s))
    ensures Constant(Values(Last(s, k))) && Values(Last(s, k))[0] == s[0].value
  {
    var vs, ws := Values(s), Values(Last(s, k));
    var off := |s| - |Last(s, k)|;
    assert forall i :: 0 <= i < |ws| ==> ws[i] == vs[off + i];
  }

  /** `Array.prototype.filter`: the points `keep` accepts, in their original order. */
  function Where(s: seq<Point>, keep: Point -> bool): (r: seq<Point>)
    ensures |r| <= |s|
    ensures forall x :: x in r <==> x in s && keep(x)
    decreases |s|
  {
    if |s| == 0 then []
    else
      var last := s[|s| - 1];
      assert forall x :: x in s <==> x in s[..|s| - 1] || x == last;
      Where(s[..|s| - 1], keep) + (if keep(last) then [last] else [])
  }

  /** A filter that keeps every point changes nothing; one that keeps none leaves nothing. */
  lemma {:induction false} WhereAllOrNone(s: seq<Point>, keep: Point -> bool)
    ensures (forall i :: 0 <= i < |s| ==> keep(s[i])) ==> Where(s, keep) == s
    ensures (forall i :: 0 <= i < |s| ==> !keep(s[i])) ==> Where(s, keep) == []
    decreases |s|
  {
    if |s| > 0 {
      var p := s[..|s| - 1];
      WhereAllOrNone(p, keep);
      assert forall i :: 0 <= i < |p| ==> p[i] == s[i];
      assert s == p + [s[|s| - 1]];
    }
  }

  /** The input positions that `Where` keeps, in increasing order. */
  function KeptIndices(s: seq<Point>, keep: Point -> bool): seq<int>
    decreases |s|
  {
    if |s| == 0 then []
    else KeptIndices(s[..|s| - 1], keep) + (if keep(s[|s| - 1]) then [|s| - 1] else [])
  }

  /** `a` is `b` with some elements dropped: `idx` says where each element of `a` sits in `b`. */
  ghost predicate SubsequenceAt<T>(a: seq<T>, b: seq<T>, idx: seq<int>) {
    && |idx| == |a|
    && (forall i :: 0 <= i < |idx| ==> 0 <= idx[i] < |b| && a[i] == b[idx[i]])
    && (forall i, j :: 0 <= i < j < |idx| ==> idx[i] < idx[j])
  }

  /** Filtering keeps the surviving points in their original relative order. */
  lemma {:induction false} WhereIsSubsequence(s: seq<Point>, keep: Point -> bool)
    ensures SubsequenceAt(Where(s, keep), s, KeptIndices(s, keep))
    decreases |s|
  {
    if |s| > 0 {
      var p := s[..|s| - 1];
      WhereIsSubsequence(p, keep);
      var w, idx := Where(p, keep), KeptIndices(p, keep);
      assert forall i :: 0 <= i < |idx| ==> idx[i] < |p| && w[i] == s[idx[i]];
    }
  }

  /**
   * Filtering by a predicate that implies another one after filtering by
   * the other is filtering by the first alone.
   */
  lemma {:induction false} WhereNarrower(s: seq<Point>, wide: Point -> bool, narrow: Point -> bool)
    requires forall x :: narrow(x) ==> wide(x)
    ensures Where(Where(s, wide), narrow) == Where(s, narrow)
    decreases |s|
  {
    if |s| > 0 {
      var p, last := s[..|s| - 1], s[|s| - 1];
      WhereNarrower(p, wide, narrow);
      var w := Where(p, wide);
      if wide(last) {
        var ws := w + [last];
        assert ws[..|ws| - 1] == w;
        assert Where(ws, narrow) == Where(w, narrow) + (if narrow(last) then [last] else []);
      } else {
        assert Where(s, wide) == w;
      }
    }
  }

  /** Values in ascending order. */
  predicate Sorted(xs: seq<real>) {
    forall i, j :: 0 <= i < j < |xs| ==> xs[i] <= xs[j]
  }

  /** Inserts `x` into an ascending sequence. */
  function Insert(x: real, xs: seq<real>): (r: seq<real>)
    requires Sorted(xs)
    ensures Sorted(r)
    ensures multiset(r) == multiset(xs) + multiset{x}
    decreases |xs|
  {
    if |xs| == 0 || x <= xs[0] then [x] + xs
    else
      var rest := Insert(x, xs[1..]);
      assert xs == [xs[0]] + xs[1..];
      LowerBoundOfInsert(xs[0], x, xs[1..], rest);
      [xs[0]] + rest
  }

  /** A lower bound of `x` and of every element of `xs` bounds every element of `rest`. */
  lemma LowerBoundOfInsert(lo: real, x: real, xs: seq<real>, rest: seq<real>)
    requires lo <= x
    requires forall i :: 0 <= i < |xs| ==> lo <= xs[i]
    requires multiset(rest) == multiset(xs) + multiset{x}
    ensures forall i :: 0 <= i < |rest| ==> lo <= rest[i]
  {
    forall i | 0 <= i < |rest|
      ensures lo <= rest[i]
    {
      var y := rest[i];
      assert y in multiset(rest);
      if y != x {
        assert y in multiset(xs);
        assert y in xs;
      }
    }
  }

  /** `[...values].sort((a, b) => a - b)`: the values in ascending numeric order. */
  function SortAsc(xs: seq<real>): (r: seq<real>)
    ensures Sorted(r)
    ensures multiset(r) == multiset(xs)
    ensures |r| == |xs|
    decreases |xs|
  {
    if |xs| == 0 then []
    else
      assert xs == [xs[0]] + xs[1..];
      var r := Insert(xs[0], SortAsc(xs[1..]));
      assert |multiset(r)| == |multiset(xs)|;
      r
  }

  /** Sorting values that are already in ascending order leaves them as they are. */
  lemma {:induction false} SortAscOfSorted(xs: seq<real>)
    requires Sorted(xs)
    ensures SortAsc(xs) == xs
    decreases |xs|
  {
    if |xs| > 0 {
      SortAscOfSorted(xs[1..]);
      assert xs == [xs[0]] + xs[1..];
    }
  }

  /** The ends of the ascending copy are the extrema of the original values. */
  lemma SortAscExtremes(xs: seq<real>)
    requires |xs| > 0
    ensures |SortAsc(xs)| == |xs|
    ensures SortAsc(xs)[0] == SeqMin(xs)
    ensures SortAsc(xs)[|xs| - 1] == SeqMax(xs)
    ensures forall i :: 0 <= i < |xs| ==> SortAsc(xs)[i] in xs
  {
    SortedPermutationExtremes(SortAsc(xs), xs);
  }

  lemma SortedPermutationExtremes(r: seq<real>, xs: seq<real>)
    requires |xs| > 0 && |r| == |xs|
    requires Sorted(r) && multiset(r) == multiset(xs)
    ensures r[0] == SeqMin(xs) && r[|r| - 1] == SeqMax(xs)
    ensures forall i :: 0 <= i < |r| ==> r[i] in xs
  {
    forall i | 0 <= i < |r|
      ensures r[i] in xs
    {
      assert r[i] in multiset(r);
    }
    var lo, hi := SeqMin(xs), SeqMax(xs);
    assert lo in multiset(r) && hi in multiset(r);
    var a :| 0 <= a < |r| && r[a] == lo;
    var b :| 0 <= b < |r| && r[b] == hi;
    assert r[0] <= r[a] && r[b] <= r[|r| - 1];
    assert r[0] in xs && r[|r| - 1] in xs;
  }

  /** Sum of squared deviations from `m`. */
  function SquaredDeviations(xs: seq<real>, m: real): real
    decreases |xs|
  {
    if |xs| == 0 then 0.0
    else SquaredDeviations(xs[..|xs| - 1], m) + Square(xs[|xs| - 1] - m)
  }

  lemma {:induction false} SquaredDeviationsZeroIff(xs: seq<real>, m: real)
    ensures SquaredDeviations(xs, m) >= 0.0
    ensures SquaredDeviations(xs, m) == 0.0 <==> forall i :: 0 <= i < |xs| ==> xs[i] == m
    decreases |xs|
  {
    if |xs| > 0 {
      var p := xs[..|xs| - 1];
      SquaredDeviationsZeroIff(p, m);
      assert forall i :: 0 <= i < |p| ==> p[i] == xs[i];
    }
  }

  /** Population variance: mean squared deviation from the mean. */
  function Variance(xs: seq<real>): real
    requires |xs| > 0
  {
    SquaredDeviations(xs, Mean(xs)) / |xs| as real
  }

  /** The variance is never negative, and it is zero exactly for a constant series. */
  lemma VarianceZeroIffConstant(xs: seq<real>)
    requires |xs| > 0
    ensures Variance(xs) >= 0.0
    ensures Variance(xs) == 0.0 <==> Constant(xs)
  {
    var m := Mean(xs);
    SquaredDeviationsZeroIff(xs, m);
    if Constant(xs) {
      MeanOfConstant(xs);
    }
    if Variance(xs) == 0.0 {
      assert SquaredDeviations(xs, m) == 0.0;
    }
  }

  /** Population standard deviation, `Math.sqrt(variance)`. */
  function StdDev(xs: seq<real>, sqrt: real -> real): (r: real)
    requires |xs| > 0 && IsSqrt(sqrt)
    ensures r >= 0.0
    ensures r == 0.0 <==> Constant(xs)
  {
    VarianceZeroIffConstant(xs);
    sqrt(Variance(xs))
  }
}

=== FILE: wrappers.dfy ===
/** The JavaScript `null` of the engine's optional results. */
module Wrappers {

  datatype Option<+T> = None | Some(value: T)
}
